=== FILE: README.md ===
# Pulse Sentry alert contract, modelled in Dafny

This project models the core of the Pulse Sentry contract. It has two parts:

- `contract/contract.js`: the alert lifecycle.
  - Alerts are raised, acknowledged and resolved under a fixed transition table.
  - They are kept in a keyed store next to an append-only index (`alert_index`) and a last-written pointer (`alert_last`).
  - They are read back one at a time, as a newest-first listing, or filtered by status.
- `contract/protocol.js`: `mapTxCommand`, which classifies a text command as one of the contract's operations or rejects it.

Layout:

- `wrappers.dfy` (`Wrappers`): `Option` and `Result`.
- `text.dfy` (`Text`): the JavaScript string primitives the code relies on.
  - `trim`, with the full ECMAScript whitespace set.
  - `toLowerCase`.
  - `Number.parseInt(s, 10)`, as an optional integer prefix.
  - The decimal rendering that `parseInt` reads back.
- `json.dfy` (`Json`): parsed JSON values, JavaScript truthiness, and `String(x)` of the `op` field.
- `alerts.dfy` (`Alerts`): the records and the store.
  - `State` has four fields: the `alert/<id>` entries as a map keyed by id, the index, the last-written alert and the timer value `currentTime`.
  - The normalisation helpers, the transition table, `_now` and `_isRaiser`/`_isAcker`.
  - `alertRaise`, `alertAck` and `alertResolve`. Each returns `Result<State, Error>`; a failure carries no store, because every check precedes every write.
  - `readAlert`, `readTimer` and `readSnapshot`, as functions that return what the contract prints.
- `queries.dfy` (`AlertQueries`): `listAlerts` and `listAlertsByStatus`.
  - `Candidates` is a recursive reference definition of the newest-first walk.
  - `CollectNewest` is the loop the contract runs, proved to return the first `limit` elements of that walk.
- `invariants.dfy` (`AlertInvariants`): the store invariant `Valid`, its preservation by every transaction and every sequence of transactions (`Run`), and the lifecycle laws.
  - A resolved alert is terminal.
  - Statuses only move forward.
  - The index is append-only.
  - Only the raiser or the acknowledger resolves.
- `router.dfy` (`Router`): `mapTxCommand` as a total function from a command to an optional `Route(kind, value)`.
  - The JSON parser is a function parameter.

Modelling choices:

- **Sender.** The sender address (`this.address`) is `Option<string>`.
- **Payload fields.** Each payload field is the text `String()` gives it, or `None` when absent.
- **Time.** The time source is `Now(timer, ts)`. A numeric `currentTime` wins; otherwise the payload's `ts` is read with `parseInt`; otherwise the time is `None` (JavaScript `null`).

Where the code differs from the behaviour one would expect of it, the model follows the code:

- **`updatedAt` is not monotone.** One would expect a raise → ack → resolve round trip to leave `updatedAt` non-decreasing. The code stamps every write with whatever `_now()` returns: the timer value or the transaction's own `ts`. Nothing compares that with the previous stamp, so `Ack` and `Resolve` promise only that `updatedAt` is the current `Now` (see `Alerts.Ack`). The invariants do not include monotonicity.
- **`alert_list:<s>` takes the integer prefix.** `alert_list:3x` gives limit 3, since `parseInt` reads a prefix. The router passes the number on without clamping (`Router.ListShorthandLimit`). In the source, the `listAlerts` schema then rejects a limit outside the integers 1 to 200, so `alert_list:500` never reaches `listAlerts`. Schema validation is not part of this model, so the model keeps the clamp `listAlerts` applies after it (`AlertQueries.ClampLimit`): in the model, 500 is clamped to 200.
- **The two listings report different totals.** `listAlertsByStatus` reports `total` as the number of alerts collected; `listAlerts` reports the length of the index.

## Model

| member | source | states |
|---|---|---|
| Alerts.CanTransition | contract/contract.js:130-133 | for the statuses the contract stores, a move is allowed exactly for open→acknowledged, open→resolved and acknowledged→resolved, and none leaves resolved |
| Alerts.TransitionsMoveForward | contract/contract.js:3-7 | read over the three statuses, the table allows exactly the moves that go forward along open < acknowledged < resolved, and none out of resolved |
| Alerts.NormalizeAlertId | contract/contract.js:99-101 | the id is `Trim` of the text, and empty when absent; it has no whitespace at either end; an already trimmed id is kept as it is; the id is empty iff it is absent or all whitespace |
| Alerts.NormalizeAlertIdFindsId | contract/contract.js:99-101 | a trimmed id with only whitespace around it in the raw text is exactly the id read |
| Alerts.NormalizeAlertIdExample | contract/contract.js:99-101 | `" a1 "` reads as the id `a1` |
| Alerts.NormalizeSeverity | contract/contract.js:103-107 | gives the trimmed lower-cased severity iff it is one of low, medium, high, critical, and nothing otherwise |
| Alerts.SeverityCaseInsensitive | contract/contract.js:104 | lower-casing the raw severity first never changes the outcome |
| Alerts.Now | contract/contract.js:109-114 | a numeric timer value is the time; otherwise the integer `parseInt` reads from `ts`; with no timer and no `ts` there is no time |
| Alerts.NowFromTransaction | contract/contract.js:112-113 | without a numeric timer, a transaction whose `ts` is the decimal form of `n` is stamped `n` |
| Alerts.OptionalText | contract/contract.js:160 | an optional text field is kept iff present and non-empty, and is then trimmed |
| Alerts.CleanTags | contract/contract.js:161-163 | every kept tag is trimmed and non-empty, and every tag whose trimmed form is non-empty is kept |
| Alerts.CleanTagsSingle | contract/contract.js:161-163 | one tag is kept, as its trimmed form, exactly when that form is non-empty; with `CleanTagsConcat` this fixes the whole result |
| Alerts.CleanTagsConcat | contract/contract.js:161-163 | cleaning works tag by tag in order: it distributes over concatenation |
| Alerts.Raise | contract/contract.js:143-179 | the four checks run in source order and the first failure is the error; success iff all pass; on success the alert is open, raised by the sender at `Now`, other alerts are untouched, it becomes `alert_last`, and its id is appended to the index only if absent; it stores the normalised severity, the trimmed title and message, the optional trimmed channel and the cleaned tags (`CarriesRequest`) |
| Alerts.NewAlert | contract/contract.js:155-170 | a raised alert is open, unacknowledged and unresolved, raised by the sender at `Now`, with a known severity, and carries the request's fields as `CarriesRequest` describes |
| Alerts.AddAlert | contract/contract.js:154-176 | writing a fresh alert stores it as raised (open, by the sender, at `Now`, other alerts untouched, index appended only if absent) with the request's fields as `CarriesRequest` describes |
| Alerts.IsRaiser | contract/contract.js:135-137 | the sender is the raiser iff it is present, non-empty and equal to `raisedBy` |
| Alerts.IsAcker | contract/contract.js:139-141 | the sender is the acknowledger iff it is present, non-empty and equal to the recorded ack actor |
| Alerts.ResolveGuardIsMayResolve | contract/contract.js:215 | the resolve guard admits exactly the raiser or the acknowledger |
| Alerts.Ack | contract/contract.js:181-202 | the checks run in order (empty id, sender, missing alert, not open); the transition check never fails; on success only that alert (now acknowledged by the sender at `Now`, other fields kept) and `alert_last` change |
| Alerts.Resolve | contract/contract.js:204-232 | the checks run in order (empty id, sender, missing alert, not open or acknowledged, not raiser or acker); success iff the alert is unresolved and the sender raised or acknowledged it; on success only that alert and `alert_last` change, and the resolver is the raiser or the acknowledger |
| Alerts.ReadAlert | contract/contract.js:234-240 | an empty id is an error; otherwise the stored alert under the trimmed id, or nothing for an unknown id |
| Alerts.ReadAfterRaise | contract/contract.js:155-175 | after a successful raise the alert reads back open, unacknowledged, unresolved and raised by the sender |
| Alerts.ReadSnapshot | contract/contract.js:277-286 | the snapshot's count is the index length, its last alert is `alert_last` and its time is the stored timer value |
| AlertQueries.RequestedLimit | contract/contract.js:244 | an absent limit reads as 20; a present one is what `parseInt` reads from its text |
| AlertQueries.RequestedLimitReadsDecimal | contract/contract.js:244 | a limit given as the decimal form of `n` is read as `n` |
| AlertQueries.ClampLimit | contract/contract.js:245 | a parsed limit is clamped into [1, 200]; an unparsable one gives 20 |
| AlertQueries.CollectNewest | contract/contract.js:247-252 | the loop over the index from its end returns exactly the first `limit` alerts of the newest-first walk |
| AlertQueries.CandidatesOfSuffix | contract/contract.js:248 | walking only the newer part of the index yields a prefix of the full walk |
| AlertQueries.CandidatesMembers | contract/contract.js:249-251 | an alert is in the walk iff an index entry names it in the store and the filter keeps it |
| AlertQueries.CandidatesAppend | contract/contract.js:248-251 | an id appended to the index is walked first |
| AlertQueries.CandidatesIgnoreUnindexed | contract/contract.js:249-251 | an alert stored under an id the index does not name never appears in the walk |
| AlertQueries.ListAlerts | contract/contract.js:242-255 | the limit is the requested one clamped into [1, 200], and 20 when it is absent or unparsable; at most that many alerts are listed, newest first, skipping missing entries, and the total is the index length |
| AlertQueries.ListAlertsNoNumber | contract/contract.js:244-245 | a limit text with no digit after the optional sign, once its leading whitespace is skipped, lists with limit 20 |
| AlertQueries.ListAlertsClampsLimit | contract/contract.js:244-245 | a limit given as `n` lists with 1 when `n` < 1, 200 when `n` > 200, and `n` otherwise |
| AlertQueries.ListAlertsByStatus | contract/contract.js:257-275 | an empty normalised status is an error and nothing else is; otherwise the limit is the clamped requested one, the items are the first `limit` alerts of the newest-first walk whose status equals the normalised status, each has exactly that status, and the total is their number |
| AlertQueries.NormalizeStatus | contract/contract.js:258 | a present status is `ToLower(Trim(...))` of its text, an absent one is empty; it has no upper-case letter; it is empty iff absent or all whitespace; a trimmed lower-case status is kept as it is |
| AlertQueries.NormalizeStatusExample | contract/contract.js:258 | `" Open "` reads as the status `open` |
| AlertQueries.ByStatusListsAllMatches | contract/contract.js:265-272 | when the matches fit within the limit, every indexed alert with the queried status is listed |
| AlertQueries.KeepsByStatus | contract/contract.js:269 | the status filter keeps an alert iff its status name equals the query |
| AlertQueries.ListingKeepsOnly | contract/contract.js:265-272 | every alert in a by-status listing has the queried status |
| AlertQueries.StatusQueryCaseInsensitive | contract/contract.js:258 | lower-casing the status argument first gives the same answer |
| AlertQueries.UnknownStatusListsNothing | contract/contract.js:257-272 | a non-empty status that names no lifecycle state succeeds with an empty listing |
| AlertInvariants.InitValid | contract/contract.js:120-123 | the empty store, with its absent index read as empty, satisfies the invariant |
| AlertInvariants.RaisedKeepsValid | contract/contract.js:172-176 | storing a fresh alert and appending its id keeps the index duplicate-free and in step with the stored alerts |
| AlertInvariants.RewrittenKeepsValid | contract/contract.js:125-128 | overwriting a stored alert with a well-formed one, and pointing `alert_last` at it, keeps the invariant |
| AlertInvariants.RaisePreservesValid | contract/contract.js:143-179 | a successful raise keeps the invariant and appends exactly the new id to the index |
| AlertInvariants.AckPreservesValid | contract/contract.js:181-202 | a successful ack keeps the invariant |
| AlertInvariants.ResolvePreservesValid | contract/contract.js:204-232 | a successful resolve keeps the invariant: the resolver is recorded and is the raiser or the acknowledger |
| AlertInvariants.StepPreservesValid | contract/contract.js:143-232 | every transaction, failed or not, leaves a valid store valid |
| AlertInvariants.RunPreservesValid | contract/contract.js:143-232 | every sequence of transactions keeps the invariant |
| AlertInvariants.RaiseEvolves | contract/contract.js:151-152 | a raise never changes an alert already stored, whether it succeeds or fails |
| AlertInvariants.AckEvolves | contract/contract.js:186-198 | an ack changes an alert only along the transition table, keeping its id, raiser and raise time |
| AlertInvariants.ResolveEvolves | contract/contract.js:209-228 | a resolve changes an alert only along the transition table, keeping its id, raiser and raise time |
| AlertInvariants.StepEffects | contract/contract.js:143-232 | no alert transaction (raise, ack, resolve) removes an alert or changes the timer, and each alert only evolves along the table |
| AlertInvariants.ResolvedIsTerminal | contract/contract.js:6 | no transaction changes a resolved alert |
| AlertInvariants.RunResolvedIsTerminal | contract/contract.js:6 | no sequence of transactions changes a resolved alert |
| AlertInvariants.StepIndexAppendOnly | contract/contract.js:172-173 | a transaction leaves the index unchanged or appends one id, and only a raise appends |
| AlertInvariants.RunIndexAppendOnly | contract/contract.js:172-173 | over n transactions the old index stays a prefix of the new one, which grows by at most n |
| AlertInvariants.NoDuplicatesCardinality | contract/contract.js:173 | a duplicate-free index has as many distinct ids as entries |
| AlertInvariants.SnapshotCountsAlerts | contract/contract.js:277-286 | in a valid store the snapshot's count is the number of stored alerts, and its last alert is a stored one |
| AlertInvariants.RaisedAlertWalkedFirst | contract/contract.js:172-176 | after a raise the walk is the new alert followed by the walk as it was |
| AlertInvariants.RaisedAlertListedFirst | contract/contract.js:242-255 | right after a raise, `listAlerts` lists the new alert first |
| AlertInvariants.RaiserMayResolve | contract/contract.js:135-137 | the raiser of a new alert may resolve it |
| AlertInvariants.AckerMayResolve | contract/contract.js:139-141 | whoever acknowledged an alert may then resolve it |
| Json.OpText | contract/protocol.js:71 | a non-empty `op` text comes from a truthy `op` field of an object, and a string `op` gives its own text |
| Json.JsStringSingleton | contract/protocol.js:71 | `String` of a one-element array is the text of its element, empty for `null` |
| Json.OpTextSingletonArray | contract/protocol.js:71 | an `op` given as a one-element array of a non-empty string reads as that string, so `{"op": ["alert_raise"]}` names `alert_raise` |
| Router.OpName | contract/protocol.js:71 | the op name has no upper-case letter; a non-object or a missing or falsy `op` gives the empty name; a string `op` gives its trimmed lower-cased text |
| Router.RouteOp | contract/protocol.js:74-110 | a name routes iff it is one of the seven recognised ops, to the operation the table gives, with the parsed object as value except for `read_snapshot` |
| Router.RouteJson | contract/protocol.js:68-72 | a parse failure or a non-object is rejected; a routed value is the parsed object or, for a snapshot, nothing |
| Router.ListRoute | contract/protocol.js:41-50 | the limit is the integer `parseInt` reads from the trimmed suffix, or 20 |
| Router.ReadRoute | contract/protocol.js:52-58 | a blank id is rejected; otherwise `readAlert` with the trimmed, non-empty id |
| Router.StatusRoute | contract/protocol.js:60-66 | a blank status is rejected; otherwise `listAlertsByStatus` with the trimmed lower-cased status and limit 20 |
| Router.RouteShorthand | contract/protocol.js:22-66 | keyword and prefix commands never route to raise, ack or resolve |
| Router.MapTxCommand | contract/protocol.js:19-111 | a command routes to raise, ack or resolve only as a parsed JSON object, which becomes the value |
| Router.TrimInvariant | contract/protocol.js:20 | surrounding whitespace never changes the route |
| Router.ShorthandIgnoresParser | contract/protocol.js:22-68 | keyword and prefix commands route the same whatever the JSON parser would say |
| Router.JsonRoutesByTable | contract/protocol.js:68-110 | any other command routes iff it parses to an object whose trimmed lower-cased `op` is recognised, to that op's operation and value |
| Router.OpNameCaseInsensitive | contract/protocol.js:71 | the `op` is matched case-insensitively |
| Router.SnapshotKeywords | contract/protocol.js:22-26 | `alert_snapshot` and `read_snapshot` route to `readSnapshot` with no value |
| Router.TimerKeyword | contract/protocol.js:28-32 | `read_timer` routes to `readTimer` |
| Router.ListKeywords | contract/protocol.js:34-38 | `alert_list` and `list_alerts` route to `listAlerts` with limit 20 |
| Router.KeywordRoutes | contract/protocol.js:20-38 | a keyword is handled by the keyword rules as written |
| Router.ListShorthandLimit | contract/protocol.js:41-50 | `alert_list:` followed by any integer `n` and non-digit text routes to `listAlerts` with limit `n`, unclamped |
| Router.ListShorthandRoutes | contract/protocol.js:41-50 | whatever follows `alert_list:` goes to the list rule |
| Router.ListShorthandDefault | contract/protocol.js:41-50 | a suffix whose trimmed text `parseInt` reads as NaN gives limit 20 |
| Router.ListShorthandNoNumber | contract/protocol.js:41-50 | a suffix whose trimmed text has no digit after the optional sign (`abc`, `-x`, nothing) gives limit 20 |
| Router.ReadPrefixRoutes | contract/protocol.js:22-58 | a command carrying the `alert_read:` prefix is taken by the read rule, with what follows the prefix |
| Router.ReadShorthandRoutes | contract/protocol.js:52-58 | whatever follows `alert_read:` goes to the read rule |
| Router.ReadShorthand | contract/protocol.js:52-58 | `alert_read:` with a blank id is rejected; otherwise it routes to `readAlert` with the trimmed id |
| Router.StatusPrefixRoutes | contract/protocol.js:22-66 | a command carrying the `alert_status:` prefix is taken by the status rule, with what follows the prefix |
| Router.StatusShorthandRoutes | contract/protocol.js:60-66 | whatever follows `alert_status:` goes to the status rule |
| Router.StatusShorthand | contract/protocol.js:60-66 | `alert_status:` with a blank status is rejected; otherwise it routes to `listAlertsByStatus` with the trimmed lower-cased status and limit 20 |
| Text.Trim | contract/contract.js:100 | the result has no whitespace at either end, an already trimmed text is unchanged, and the result is empty iff the text is all whitespace |
| Text.TrimIsSlice | contract/contract.js:100 | the trimmed text is the slice of the text left once the leading and the trailing whitespace runs are cut |
| Text.TrimUnique | contract/contract.js:100 | any trimmed slice with only whitespace around it is the trimmed text; with `TrimIsSlice` this fixes the result |
| Text.TrimIdempotent | contract/contract.js:100 | trimming twice is trimming once |
| Text.ToLower | contract/contract.js:104 | same length; each of A-Z becomes its lower-case letter (32 code points on), the KELVIN SIGN becomes `k`, every other character is kept in place, so no upper-case letter is left |
| Text.TrimToLower | contract/contract.js:104 | trimming and lower-casing commute |
| Text.ParseIntDecimal | contract/contract.js:112 | `parseInt` reads back the decimal form of any integer, whatever non-digit text follows |
| Text.ParseIntNone | contract/contract.js:112 | `parseInt` gives NaN exactly when, after the leading whitespace, no digit follows the optional sign |
| Text.ParseIntNoneExample | contract/contract.js:112 | `abc` reads as no number |
| Text.PositiveSign | contract/contract.js:112 | a leading `+` is dropped and the digits after it are read |

## Left out

- Schema validation (`addSchema` and the `trac-peer` validator) belongs to a library that is not part of this model. So the model does not reject what the schemas would reject before an operation runs:
  - the length limits on `alertId` (3 to 64), `title` (3 to 180), `severity`, `message`, `channel`, `note`, `resolution`, `status` and `op` (contract/contract.js:13-75);
  - `limit` outside the integers 1 to 200 (contract/contract.js:64, 74): the model clamps it instead, as `listAlerts` does after validation;
  - a non-integer `ts` (contract/contract.js:24, 35, 46);
  - more than 20 tags (contract/contract.js:23), and fields the strict schemas do not name.
- The JSON parser (`safeJsonParse`) is not part of this model. The router takes it as a parameter `parse: string -> Option<Json>`.
- The store's `get`/`put`, persistence and `async` scheduling are host I/O. The store is the immutable `State`, and a transaction runs to completion before the next starts.
- The timer feature body is a host hook. Its effect is only the `currentTime` field that `Now` reads.
- `console.log`. The read and list operations return what they would print.
- `readTimer` only prints the stored timer value; `Alerts.ReadTimer` returns it and states nothing more.
- `extendApi`, `printOptions` and `customCommand` are terminal UI and network/wallet introspection.
- Numbers are integers. Fractional, `NaN`, `Infinity` and exponent forms of `ts`, `limit` and the JSON `op` are not modelled. Neither is `parseInt` returning a float for very long digit runs.
- `Text.ToLower` maps the ASCII letters A to Z, and U+212A KELVIN SIGN to `k`. JavaScript lower-cases every Unicode letter. The KELVIN SIGN is the one non-ASCII character whose lower-case form is ASCII text. Every other non-ASCII character lower-cases to text that still holds a non-ASCII character, so it can never equal the ASCII severities, statuses and op names the model compares with. Where such a character is only carried along, for example the status text in an `alert_status:` route, the model keeps it unchanged and JavaScript would lower-case it.
- Truthiness of payload fields is modelled on their text: an absent field and an empty text are both falsy. The numeric `0` that JavaScript also treats as falsy before `String()` is not distinguished from `"0"`.
- Text.Trim: its own contract gives the shape of the result, not its value. The value is fixed by `Text.TrimIsSlice` and `Text.TrimUnique`: the result is the one trimmed slice with only whitespace around it. The slice fact is kept out of `Trim`'s contract because every caller of `Trim` would carry it.
- Alerts.CanTransition: the contract looks a status up with `VALID_TRANSITIONS[from] || []` (contract/contract.js:131). For a name that `Object.prototype` supplies, such as `constructor`, `toString` or `__proto__`, the lookup finds an inherited function or object that has no `includes` method, so the call throws. The model answers `false` for every name outside the table. The contract calls it only with the statuses it stores (contract/contract.js:189, 219), and those are never such names.
- Text.ParseIntPrefix: its own contract states only that whitespace parses to nothing. Its meaning is given by lemmas: `Text.ParseIntNone` says when it reads no number, `Text.ParseIntDecimal` what it reads from the decimal form of an integer, and `Text.PositiveSign` that a leading `+` is dropped.
- `Alerts.Ack`, `Alerts.Resolve`: `updatedAt` is stated equal to `Now`, not non-decreasing, because the code does not ensure it (see above).

=== FILE: alerts.dfy ===
/** The alert lifecycle state machine of `contract/contract.js`: the alert
    record, the store it lives in, the normalisation helpers, the transition
    table, and the mutating operations raise, ack and resolve together with
    the point reads.

    Each operation takes the store, the sender's address and the fields of
    the transaction payload, and returns either the store after the call or
    the error it returned. A failure carries no store: every check precedes
    every write, so a failed call leaves the store as it was. */
module Alerts {
  import opened Wrappers
  import opened Text

  datatype Status = Open | Acknowledged | Resolved {
    /** The lower-case text stored in the alert's `status` field. */
    function Name(): string {
      match this
      case Open => "open"
      case Acknowledged => "acknowledged"
      case Resolved => "resolved"
    }

    /** Position along the lifecycle. */
    function Rank(): nat {
      match this
      case Open => 0
      case Acknowledged => 1
      case Resolved => 2
    }
  }

  /** The `ack` record: who acknowledged (`by`), when, and the trimmed note. */
  datatype AckInfo = AckInfo(actor: string, at: Option<int>, note: Option<string>)

  /** The `resolved` record: who resolved (`by`), when, and the trimmed resolution. */
  datatype Resolution = Resolution(actor: string, at: Option<int>, resolution: Option<string>)

  /** The value stored at `alert/<alertId>`; timestamps are `None` when the
      time source gave `null`. */
  datatype Alert = Alert(
    alertId: string,
    title: string,
    severity: string,
    message: string,
    channel: Option<string>,
    tags: seq<string>,
    status: Status,
    raisedBy: string,
    raisedAt: Option<int>,
    updatedAt: Option<int>,
    ack: Option<AckInfo>,
    resolved: Option<Resolution>)

  /** Whatever the timer feature stored under `currentTime`: a number, or
      some other value (kept as its text). */
  datatype TimerValue = Number(n: int) | NonNumber(text: string)

  /** The keyed store as the contract uses it: `alert/<id>` entries (keyed
      here by id), `alert_index`, `alert_last` and `currentTime`. An absent
      `alert_index` reads as the empty sequence. */
  datatype State = State(
    alerts: map<string, Alert>,
    index: seq<string>,
    last: Option<Alert>,
    timer: Option<TimerValue>)

  /** The fields of an `alert_raise` payload, each as the text `String()`
      gives it, `None` when absent. */
  datatype RaiseRequest = RaiseRequest(
    alertId: Option<string>,
    title: Option<string>,
    severity: Option<string>,
    message: Option<string>,
    channel: Option<string>,
    tags: Option<seq<string>>,
    ts: Option<string>)

  datatype AckRequest = AckRequest(alertId: Option<string>, note: Option<string>, ts: Option<string>)

  datatype ResolveRequest = ResolveRequest(alertId: Option<string>, resolution: Option<string>, ts: Option<string>)

  /** The `Error` values the operations return, one per failed check. */
  datatype Error =
    | MissingAlertId
    | MissingSender
    | InvalidSeverity
    | AlreadyExists(alertId: string)
    | NotFound(alertId: string)
    | NotOpen(current: Status)
    | NotResolvable(current: Status)
    | NotAuthorized
    | InvalidTransition
    | MissingStatus

  /** The store before any transaction: no alert, empty index, nothing last. */
  function Init(timer: Option<TimerValue>): State {
    State(map[], [], None, timer)
  }

  /** `String(x || '')`. */
  function OrEmpty(x: Option<string>): string {
    x.GetOr("")
  }

  /** `x ? String(x).trim() : null`: a non-empty text, trimmed. */
  function OptionalText(x: Option<string>): (r: Option<string>)
    ensures r.Some? <==> x.Some? && x.value != ""
    ensures r.Some? ==> r.value == Trim(x.value)
  {
    if x.Some? && x.value != "" then Some(Trim(x.value)) else None
  }

  /** `this.address` is present and not empty. */
  predicate HasSender(sender: Option<string>) {
    sender.Some? && sender.value != ""
  }

  /** `_normalizeAlertId`: the trimmed id, empty when missing. */
  function NormalizeAlertId(raw: Option<string>): (id: string)
    ensures Trimmed(id)
    ensures raw.None? ==> id == ""
    ensures raw.Some? ==> id == Trim(raw.value)
    ensures raw.Some? && Trimmed(raw.value) ==> id == raw.value
    ensures id == "" <==> raw.None? || AllWhitespace(raw.value)
  {
    Trim(OrEmpty(raw))
  }

  /** The id is recovered from any text that holds it between runs of
      whitespace: `_normalizeAlertId` finds exactly the trimmed id. */
  lemma NormalizeAlertIdFindsId(raw: string, i: nat, id: string)
    requires SliceBetweenWhitespace(raw, i, id) && Trimmed(id)
    ensures NormalizeAlertId(Some(raw)) == id
  {
    TrimUnique(raw, i, id);
  }

  /** For instance, `" a1 "` names the alert `a1`. */
  lemma NormalizeAlertIdExample()
    ensures NormalizeAlertId(Some(" a1 ")) == "a1"
  {
    var raw := " a1 ";
    assert raw[1..3] == "a1" && raw[..1] == " " && raw[3..] == " ";
    NormalizeAlertIdFindsId(raw, 1, "a1");
  }

  const Severities: set<string> := {"low", "medium", "high", "critical"}

  /** `_normalizeSeverity`: the trimmed, lower-cased severity when it is one
      of the four allowed levels, and `None` otherwise. */
  function NormalizeSeverity(raw: Option<string>): (r: Option<string>)
    ensures r.Some? <==> ToLower(Trim(OrEmpty(raw))) in Severities
    ensures r.Some? ==> r.value == ToLower(Trim(OrEmpty(raw))) && r.value in Severities
  {
    var value := ToLower(Trim(OrEmpty(raw)));
    if value in Severities then Some(value) else None
  }

  /** Severity is read case-insensitively: lower-casing the raw text first
      changes nothing. */
  lemma SeverityCaseInsensitive(raw: string)
    ensures NormalizeSeverity(Some(raw)) == NormalizeSeverity(Some(ToLower(raw)))
  {
    TrimToLower(raw);
    ToLowerIdempotent(Trim(raw));
  }

  /** `_now`: a numeric timer value wins; otherwise the payload's `ts`
      read with `parseInt`; otherwise `None`. */
  function Now(timer: Option<TimerValue>, ts: Option<string>): (r: Option<int>)
    ensures timer.Some? && timer.value.Number? ==> r == Some(timer.value.n)
    ensures (timer.None? || timer.value.NonNumber?) && ts.None? ==> r.None?
  {
    match timer
    case Some(Number(n)) => Some(n)
    case _ => ParseIntPrefix(OrEmpty(ts))
  }

  /** Without a numeric timer, the transaction's integer `ts` is the time. */
  lemma NowFromTransaction(timer: Option<TimerValue>, n: int)
    requires timer.None? || timer.value.NonNumber?
    ensures Now(timer, Some(IntToDecimal(n))) == Some(n)
  {
    assert IntToDecimal(n) + "" == IntToDecimal(n);
    ParseIntDecimal(n, "");
  }

  /** The raise payload's tags: each trimmed, the empty ones dropped, the
      order kept. */
  function CleanTags(tags: seq<string>): (r: seq<string>)
    ensures |r| <= |tags|
    ensures forall i :: 0 <= i < |r| ==> r[i] != "" && Trimmed(r[i])
    ensures forall i :: 0 <= i < |tags| && Trim(tags[i]) != "" ==> Trim(tags[i]) in r
  {
    if tags == [] then []
    else
      var t := Trim(tags[0]);
      var rest := CleanTags(tags[1..]);
      var r := if t == "" then rest else [t] + rest;
      CleanTagsStepTrimmed(t, rest, r);
      CleanTagsStepKeeps(tags, rest, r);
      r
  }

  /** One step of the cleaning keeps only non-empty trimmed tags: the
      trimmed head, if not empty, in front of such tags. */
  lemma CleanTagsStepTrimmed(t: string, rest: seq<string>, r: seq<string>)
    requires Trimmed(t)
    requires forall i :: 0 <= i < |rest| ==> rest[i] != "" && Trimmed(rest[i])
    requires r == if t == "" then rest else [t] + rest
    ensures |r| <= |rest| + 1
    ensures forall i :: 0 <= i < |r| ==> r[i] != "" && Trimmed(r[i])
  {
    if t != "" {
      assert forall i :: 1 <= i < |r| ==> r[i] == rest[i - 1];
    }
  }

  /** One step of the cleaning loses no tag: if the cleaning `rest` of the
      tail of `tags` holds every non-empty trimmed tail tag, putting the
      trimmed head in front (unless empty) holds every one of `tags`. */
  lemma CleanTagsStepKeeps(tags: seq<string>, rest: seq<string>, r: seq<string>)
    requires tags != []
    requires forall i :: 0 <= i < |tags[1..]| && Trim(tags[1..][i]) != "" ==> Trim(tags[1..][i]) in rest
    requires r == if Trim(tags[0]) == "" then rest else [Trim(tags[0])] + rest
    ensures forall i :: 0 <= i < |tags| && Trim(tags[i]) != "" ==> Trim(tags[i]) in r
  {
    forall i | 0 <= i < |tags| && Trim(tags[i]) != "" ensures Trim(tags[i]) in r {
      if i == 0 {
        assert r[0] == Trim(tags[0]);
      } else {
        assert tags[1..][i - 1] == tags[i];
        assert Trim(tags[i]) in rest;
      }
    }
  }

  /** One tag is kept, trimmed, exactly when its trimmed form is not empty. */
  lemma CleanTagsSingle(t: string)
    ensures CleanTags([t]) == if Trim(t) == "" then [] else [Trim(t)]
  {
    assert [t][1..] == [];
  }

  /** Cleaning distributes over concatenation: together with its effect on a
      single tag this fixes the result, order included. */
  lemma {:induction false} CleanTagsConcat(a: seq<string>, b: seq<string>)
    ensures CleanTags(a + b) == CleanTags(a) + CleanTags(b)
    decreases |a|
  {
    if a == [] {
      assert a + b == b;
    } else {
      assert (a + b)[1..] == a[1..] + b;
      CleanTagsConcat(a[1..], b);
    }
  }

  /** `VALID_TRANSITIONS`. */
  const ValidTransitions: map<string, seq<string>> :=
    map["open" := ["acknowledged", "resolved"], "acknowledged" := ["resolved"], "resolved" := []]

  /** `_canTransition`: exactly open to acknowledged, open to resolved and
      acknowledged to resolved; nothing leaves resolved. */
  function CanTransition(from: string, to: string): (r: bool)
    ensures r <==> (from == "open" && (to == "acknowledged" || to == "resolved"))
                   || (from == "acknowledged" && to == "resolved")
  {
    var next := if from in ValidTransitions then ValidTransitions[from] else [];
    to in next
  }

  /** Read over statuses, the table allows exactly the moves forward along
      the lifecycle: none back, none in place, none out of resolved. */
  lemma TransitionsMoveForward(from: Status, to: Status)
    ensures CanTransition(from.Name(), to.Name()) <==> from.Rank() < to.Rank()
    ensures from == Resolved ==> !CanTransition(from.Name(), to.Name())
  {
  }

  /** `_isRaiser`: a non-empty `raisedBy` equal to a non-empty sender. */
  predicate IsRaiser(a: Alert, sender: Option<string>)
    ensures IsRaiser(a, sender) <==> HasSender(sender) && sender.value == a.raisedBy
  {
    a.raisedBy != "" && sender.Some? && sender.value != "" && a.raisedBy == sender.value
  }

  /** `_isAcker`: a non-empty `ack.actor` equal to a non-empty sender. */
  predicate IsAcker(a: Alert, sender: Option<string>)
    ensures IsAcker(a, sender) <==> HasSender(sender) && a.ack.Some? && sender.value == a.ack.value.actor
  {
    a.ack.Some? && a.ack.value.actor != "" && sender.Some? && sender.value != "" && a.ack.value.actor == sender.value
  }

  /** Who may resolve `a`: a sender who raised it or acknowledged it. */
  predicate MayResolve(a: Alert, sender: Option<string>) {
    HasSender(sender) && (sender.value == a.raisedBy || (a.ack.Some? && sender.value == a.ack.value.actor))
  }

  /** The guard of `alertResolve` admits exactly the senders `MayResolve`
      names: the raiser or the acknowledger. */
  lemma ResolveGuardIsMayResolve(a: Alert, sender: Option<string>)
    ensures IsRaiser(a, sender) || IsAcker(a, sender) <==> MayResolve(a, sender)
  {
  }

  /** The payload fields of `req` as a raised alert stores them: the
      normalised severity, the trimmed title and message, the optional
      trimmed channel, and the cleaned tags (none when `tags` is absent). */
  predicate CarriesRequest(a: Alert, req: RaiseRequest) {
    && NormalizeSeverity(req.severity) == Some(a.severity)
    && a.title == Trim(OrEmpty(req.title))
    && a.message == Trim(OrEmpty(req.message))
    && a.channel == OptionalText(req.channel)
    && a.tags == CleanTags(req.tags.GetOr([]))
  }

  /** The alert a successful raise stores: open, unacknowledged and
      unresolved, raised by `sender` at `now`, carrying the payload. */
  function NewAlert(id: string, severity: string, sender: string, now: Option<int>, req: RaiseRequest): (a: Alert)
    requires NormalizeSeverity(req.severity) == Some(severity)
    ensures a.alertId == id && a.status == Open && a.ack.None? && a.resolved.None?
    ensures a.raisedBy == sender && a.raisedAt == now && a.updatedAt == now
    ensures a.severity in Severities
    ensures CarriesRequest(a, req)
  {
    Alert(id, Trim(OrEmpty(req.title)), severity, Trim(OrEmpty(req.message)),
          OptionalText(req.channel), CleanTags(req.tags.GetOr([])),
          Open, sender, now, now, None, None)
  }

  /** `t` is `s` after alert `id` was raised by `sender` at `now`: the new
      alert is open, unacknowledged and unresolved, no other alert changed,
      the new alert is the last written one, its id ends the index exactly
      once, and the timer is untouched. */
  predicate Raised(s: State, t: State, id: string, sender: string, now: Option<int>) {
    && id in t.alerts
    && t.alerts.Keys == s.alerts.Keys + {id}
    && (forall k :: k in s.alerts ==> t.alerts[k] == s.alerts[k])
    && t.alerts[id].alertId == id
    && t.alerts[id].status == Open && t.alerts[id].ack.None? && t.alerts[id].resolved.None?
    && t.alerts[id].raisedBy == sender
    && t.alerts[id].raisedAt == now && t.alerts[id].updatedAt == now
    && t.alerts[id].severity in Severities
    && t.last == Some(t.alerts[id])
    && t.index == (if id in s.index then s.index else s.index + [id])
    && t.timer == s.timer
  }

  /** Writing a new key into the store adds exactly that key and leaves
      every other entry as it was. */
  lemma StoreAdds(alerts: map<string, Alert>, id: string, a: Alert)
    requires id !in alerts
    ensures alerts[id := a].Keys == alerts.Keys + {id}
    ensures forall k :: k in alerts ==> alerts[id := a][k] == alerts[k]
    ensures alerts[id := a][id] == a
  {
  }

  /** The store after a raise that passed every check: the new alert is
      written under `id`, appended to the index unless already there, and
      made the last written one. */
  function AddAlert(s: State, id: string, severity: string, sender: string, now: Option<int>,
                    req: RaiseRequest): (t: State)
    requires id !in s.alerts
    requires NormalizeSeverity(req.severity) == Some(severity)
    ensures Raised(s, t, id, sender, now)
    ensures CarriesRequest(t.alerts[id], req)
  {
    var alert := NewAlert(id, severity, sender, now, req);
    var alerts := s.alerts[id := alert];
    StoreAdds(s.alerts, id, alert);
    var index := if id in s.index then s.index else s.index + [id];
    State(alerts, index, Some(alert), s.timer)
  }

  /** `alertRaise`. The checks run in order (empty id, missing sender, bad
      severity, existing alert) and the first failure is returned; otherwise
      the alert is raised as `Raised` describes. */
  function Raise(s: State, sender: Option<string>, req: RaiseRequest): (r: Result<State, Error>)
    ensures var id := NormalizeAlertId(req.alertId);
      && (id == "" ==> r == Failure(MissingAlertId))
      && (id != "" && !HasSender(sender) ==> r == Failure(MissingSender))
      && (id != "" && HasSender(sender) && NormalizeSeverity(req.severity).None? ==> r == Failure(InvalidSeverity))
      && (id != "" && HasSender(sender) && NormalizeSeverity(req.severity).Some? && id in s.alerts
          ==> r == Failure(AlreadyExists(id)))
    ensures r.Success? <==> (NormalizeAlertId(req.alertId) != "" && HasSender(sender)
                             && NormalizeSeverity(req.severity).Some? && NormalizeAlertId(req.alertId) !in s.alerts)
    ensures r.Success? ==> Raised(s, r.value, NormalizeAlertId(req.alertId), sender.value, Now(s.timer, req.ts))
    ensures r.Success? ==> NormalizeAlertId(req.alertId) in r.value.alerts
                           && CarriesRequest(r.value.alerts[NormalizeAlertId(req.alertId)], req)
  {
    var id := NormalizeAlertId(req.alertId);
    if id == "" then Failure(MissingAlertId)
    else if !HasSender(sender) then Failure(MissingSender)
    else
      var severity := NormalizeSeverity(req.severity);
      if severity.None? then Failure(InvalidSeverity)
      else if id in s.alerts then Failure(AlreadyExists(id))
      else
        Success(AddAlert(s, id, severity.value, sender.value, Now(s.timer, req.ts), req))
  }

  /** `t` is `s` after `changed` was written over alert `id`: no other
      alert, the index and the timer are untouched, and `changed` is the
      last written alert. */
  predicate Rewritten(s: State, t: State, id: string, changed: Alert) {
    && id in s.alerts
    && t.alerts == s.alerts[id := changed]
    && t.last == Some(changed)
    && t.index == s.index
    && t.timer == s.timer
  }

  /** `alertAck`. The checks run in order (empty id, missing sender, unknown
      alert, alert not open) and the first failure is returned; the
      transition-table check after them never fails. On success the alert
      becomes acknowledged by the sender at the current time, with all its
      other fields kept, and nothing else but the last-written pointer
      changes. */
  function Ack(s: State, sender: Option<string>, req: AckRequest): (r: Result<State, Error>)
    ensures var id := NormalizeAlertId(req.alertId);
      && (id == "" ==> r == Failure(MissingAlertId))
      && (id != "" && !HasSender(sender) ==> r == Failure(MissingSender))
      && (id != "" && HasSender(sender) && id !in s.alerts ==> r == Failure(NotFound(id)))
      && (id != "" && HasSender(sender) && id in s.alerts && s.alerts[id].status != Open
          ==> r == Failure(NotOpen(s.alerts[id].status)))
    ensures r != Failure(InvalidTransition)
    ensures r.Success? <==> (NormalizeAlertId(req.alertId) != "" && HasSender(sender)
                             && NormalizeAlertId(req.alertId) in s.alerts
                             && s.alerts[NormalizeAlertId(req.alertId)].status == Open)
    ensures r.Success? ==>
      var id := NormalizeAlertId(req.alertId);
      var now := Now(s.timer, req.ts);
      Rewritten(s, r.value, id, s.alerts[id].(status := Acknowledged, updatedAt := now,
                                              ack := Some(AckInfo(sender.value, now, OptionalText(req.note)))))
  {
    var id := NormalizeAlertId(req.alertId);
    if id == "" then Failure(MissingAlertId)
    else if !HasSender(sender) then Failure(MissingSender)
    else if id !in s.alerts then Failure(NotFound(id))
    else
      var alert := s.alerts[id];
      TransitionsMoveForward(alert.status, Acknowledged);
      if alert.status != Open then Failure(NotOpen(alert.status))
      else if !CanTransition(alert.status.Name(), "acknowledged") then Failure(InvalidTransition)
      else
        var now := Now(s.timer, req.ts);
        var acked := alert.(status := Acknowledged, updatedAt := now,
                            ack := Some(AckInfo(sender.value, now, OptionalText(req.note))));
        Success(s.(alerts := s.alerts[id := acked], last := Some(acked)))
  }

  /** `alertResolve`. The checks run in order (empty id, missing sender,
      unknown alert, alert already resolved, sender neither raiser nor
      acknowledger) and the first failure is returned; the transition-table
      check after them never fails. On success the alert becomes resolved by
      the sender, who is its raiser or its acknowledger, with all its other
      fields kept, and nothing else but the last-written pointer changes. */
  function Resolve(s: State, sender: Option<string>, req: ResolveRequest): (r: Result<State, Error>)
    ensures var id := NormalizeAlertId(req.alertId);
      && (id == "" ==> r == Failure(MissingAlertId))
      && (id != "" && !HasSender(sender) ==> r == Failure(MissingSender))
      && (id != "" && HasSender(sender) && id !in s.alerts ==> r == Failure(NotFound(id)))
      && (id != "" && HasSender(sender) && id in s.alerts && s.alerts[id].status == Resolved
          ==> r == Failure(NotResolvable(Resolved)))
      && (id != "" && HasSender(sender) && id in s.alerts && s.alerts[id].status != Resolved && !MayResolve(s.alerts[id], sender)
          ==> r == Failure(NotAuthorized))
    ensures r != Failure(InvalidTransition)
    ensures r.Success? <==> (NormalizeAlertId(req.alertId) != "" && NormalizeAlertId(req.alertId) in s.alerts
                             && s.alerts[NormalizeAlertId(req.alertId)].status != Resolved
                             && MayResolve(s.alerts[NormalizeAlertId(req.alertId)], sender))
    ensures r.Success? ==>
      var id := NormalizeAlertId(req.alertId);
      var now := Now(s.timer, req.ts);
      && Rewritten(s, r.value, id, s.alerts[id].(status := Resolved, updatedAt := now,
                                                 resolved := Some(Resolution(sender.value, now, OptionalText(req.resolution)))))
      && (sender.value == s.alerts[id].raisedBy
          || (s.alerts[id].ack.Some? && sender.value == s.alerts[id].ack.value.actor))
  {
    var id := NormalizeAlertId(req.alertId);
    if id == "" then Failure(MissingAlertId)
    else if !HasSender(sender) then Failure(MissingSender)
    else if id !in s.alerts then Failure(NotFound(id))
    else
      var alert := s.alerts[id];
      assert IsRaiser(alert, sender) || IsAcker(alert, sender) <==> MayResolve(alert, sender);
      TransitionsMoveForward(alert.status, Resolved);
      if alert.status != Open && alert.status != Acknowledged then Failure(NotResolvable(alert.status))
      else if !IsRaiser(alert, sender) && !IsAcker(alert, sender) then Failure(NotAuthorized)
      else if !CanTransition(alert.status.Name(), "resolved") then Failure(InvalidTransition)
      else
        var now := Now(s.timer, req.ts);
        var done := alert.(status := Resolved, updatedAt := now,
                           resolved := Some(Resolution(sender.value, now, OptionalText(req.resolution))));
        Success(s.(alerts := s.alerts[id := done], last := Some(done)))
  }

  /** `readAlert`: an empty id is an error, but an unknown id is not: it
      reads as `None`, unlike in ack and resolve. */
  function ReadAlert(s: State, alertId: Option<string>): (r: Result<Option<Alert>, Error>)
    ensures r.Failure? <==> NormalizeAlertId(alertId) == ""
    ensures r.Failure? ==> r.error == MissingAlertId
    ensures r.Success? ==> (r.value.Some? <==> NormalizeAlertId(alertId) in s.alerts)
    ensures r.Success? && r.value.Some? ==> r.value.value == s.alerts[NormalizeAlertId(alertId)]
  {
    var id := NormalizeAlertId(alertId);
    if id == "" then Failure(MissingAlertId)
    else Success(if id in s.alerts then Some(s.alerts[id]) else None)
  }

  /** A raised alert reads back open, unacknowledged, unresolved and raised
      by its sender, under the id it was raised with. */
  lemma ReadAfterRaise(s: State, sender: Option<string>, req: RaiseRequest)
    requires Raise(s, sender, req).Success?
    ensures var a := ReadAlert(Raise(s, sender, req).value, req.alertId);
      && a.Success? && a.value.Some?
      && a.value.value.status == Open && a.value.value.ack.None? && a.value.value.resolved.None?
      && a.value.value.raisedBy == sender.value
  {
  }

  /** `readTimer`: the stored timer value, as it is. */
  function ReadTimer(s: State): Option<TimerValue> {
    s.timer
  }

  /** The summary `readSnapshot` reports. */
  datatype Snapshot = Snapshot(alertCount: nat, alertLast: Option<Alert>, currentTime: Option<TimerValue>)

  /** `readSnapshot`: the index length, the last written alert and the timer. */
  function ReadSnapshot(s: State): (r: Snapshot)
    ensures r.alertCount == |s.index|
    ensures r.alertLast == s.last
    ensures r.currentTime == ReadTimer(s)
  {
    Snapshot(|s.index|, s.last, s.timer)
  }
}

=== FILE: invariants.dfy ===
/** What the alert operations keep true of the store, one transaction at a
    time and over any sequence of transactions: the index names every stored
    alert exactly once, every alert is consistent with its status, resolved
    alerts never change again, statuses only move forward through the
    transition table, and the index only grows at its end. */
module AlertInvariants {
  import opened Wrappers
  import opened Text
  import opened Alerts
  import opened AlertQueries

  predicate NoDuplicates(xs: seq<string>) {
    forall i, j :: 0 <= i < j < |xs| ==> xs[i] != xs[j]
  }

  /** Who resolved `a` raised it or acknowledged it. */
  predicate ResolvedByParticipant(a: Alert)
    requires a.resolved.Some?
  {
    a.resolved.value.actor == a.raisedBy || (a.ack.Some? && a.resolved.value.actor == a.ack.value.actor)
  }

  /** An alert stored under `id` carries that id, names its raiser, and has
      exactly the records its status implies. */
  predicate WellFormed(id: string, a: Alert) {
    && a.alertId == id && id != ""
    && a.raisedBy != ""
    && match a.status
       case Open => a.ack.None? && a.resolved.None?
       case Acknowledged => a.ack.Some? && a.ack.value.actor != "" && a.resolved.None?
       case Resolved => a.resolved.Some? && ResolvedByParticipant(a)
  }

  /** The store invariant. */
  predicate Valid(s: State) {
    && NoDuplicates(s.index)
    && (forall i :: 0 <= i < |s.index| ==> s.index[i] in s.alerts)
    && (forall id :: id in s.alerts ==> id in s.index && WellFormed(id, s.alerts[id]))
    && (s.last.Some? ==> s.last.value.alertId in s.alerts && s.alerts[s.last.value.alertId] == s.last.value)
  }

  lemma InitValid(timer: Option<TimerValue>)
    ensures Valid(Init(timer))
  {
  }

  /** Adding a fresh, well-formed alert as `Raised` describes keeps the
      invariant, and the id is appended to the index. */
  lemma RaisedKeepsValid(s: State, t: State, id: string, sender: string, now: Option<int>)
    requires Valid(s)
    requires id != "" && sender != "" && id !in s.alerts
    requires Raised(s, t, id, sender, now)
    ensures Valid(t)
    ensures t.index == s.index + [id]
  {
    assert id !in s.index;
    assert WellFormed(id, t.alerts[id]);
    forall i | 0 <= i < |t.index|
      ensures t.index[i] in t.alerts
    {
      if i < |s.index| {
        assert t.index[i] == s.index[i];
      }
    }
    forall k | k in t.alerts
      ensures k in t.index && WellFormed(k, t.alerts[k])
    {
      if k != id {
        assert k in s.alerts;
      }
    }
  }

  /** Writing a well-formed alert over a stored one, as `Rewritten`
      describes, keeps the invariant. */
  lemma RewrittenKeepsValid(s: State, t: State, id: string, changed: Alert)
    requires Valid(s)
    requires Rewritten(s, t, id, changed)
    requires WellFormed(id, changed)
    ensures Valid(t)
  {
    forall k | k in t.alerts
      ensures k in t.index && WellFormed(k, t.alerts[k])
    {
      if k != id {
        assert t.alerts[k] == s.alerts[k];
      }
    }
  }

  /** A successful raise keeps the invariant; in particular the index gains
      the new id and still has no duplicate. */
  lemma RaisePreservesValid(s: State, sender: Option<string>, req: RaiseRequest)
    requires Valid(s)
    ensures Raise(s, sender, req).Success? ==> Valid(Raise(s, sender, req).value)
    ensures Raise(s, sender, req).Success? ==>
      Raise(s, sender, req).value.index == s.index + [NormalizeAlertId(req.alertId)]
  {
    var r := Raise(s, sender, req);
    if r.Success? {
      RaisedKeepsValid(s, r.value, NormalizeAlertId(req.alertId), sender.value, Now(s.timer, req.ts));
    }
  }

  lemma AckPreservesValid(s: State, sender: Option<string>, req: AckRequest)
    requires Valid(s)
    ensures Ack(s, sender, req).Success? ==> Valid(Ack(s, sender, req).value)
  {
    var r := Ack(s, sender, req);
    if r.Success? {
      var id := NormalizeAlertId(req.alertId);
      RewrittenKeepsValid(s, r.value, id, r.value.alerts[id]);
    }
  }

  lemma ResolvePreservesValid(s: State, sender: Option<string>, req: ResolveRequest)
    requires Valid(s)
    ensures Resolve(s, sender, req).Success? ==> Valid(Resolve(s, sender, req).value)
  {
    var r := Resolve(s, sender, req);
    if r.Success? {
      var id := NormalizeAlertId(req.alertId);
      var done := r.value.alerts[id];
      assert done.resolved.Some? && ResolvedByParticipant(done);
      RewrittenKeepsValid(s, r.value, id, done);
    }
  }

  /** One mutating transaction. */
  datatype Command =
    | RaiseCmd(sender: Option<string>, raise: RaiseRequest)
    | AckCmd(sender: Option<string>, ack: AckRequest)
    | ResolveCmd(sender: Option<string>, resolve: ResolveRequest)

  function Step(s: State, c: Command): Result<State, Error> {
    match c
    case RaiseCmd(sender, req) => Raise(s, sender, req)
    case AckCmd(sender, req) => Ack(s, sender, req)
    case ResolveCmd(sender, req) => Resolve(s, sender, req)
  }

  /** The store after a transaction: the new store, or the old one unchanged
      when the operation returned an error. */
  function Commit(s: State, c: Command): State {
    var r := Step(s, c);
    if r.Success? then r.value else s
  }

  /** The store after a sequence of transactions, in order. */
  function Run(s: State, cs: seq<Command>): State
    decreases |cs|
  {
    if cs == [] then s else Run(Commit(s, cs[0]), cs[1..])
  }

  lemma StepPreservesValid(s: State, c: Command)
    requires Valid(s)
    ensures Valid(Commit(s, c))
  {
    match c
    case RaiseCmd(sender, req) => RaisePreservesValid(s, sender, req);
    case AckCmd(sender, req) => AckPreservesValid(s, sender, req);
    case ResolveCmd(sender, req) => ResolvePreservesValid(s, sender, req);
  }

  /** How one alert may change in one transaction: its identity, raiser and
      raise time stay; its status either stays, and then nothing about it
      changes, or moves along the transition table. */
  predicate Evolves(before: Alert, after: Alert) {
    && after.alertId == before.alertId
    && after.raisedBy == before.raisedBy
    && after.raisedAt == before.raisedAt
    && (after == before || CanTransition(before.status.Name(), after.status.Name()))
    && (after.status == before.status ==> after == before)
  }

  lemma RaiseEvolves(s: State, sender: Option<string>, req: RaiseRequest, id: string)
    requires id in s.alerts
    ensures var t := Commit(s, RaiseCmd(sender, req));
      id in t.alerts && t.alerts[id] == s.alerts[id]
  {
  }

  lemma AckEvolves(s: State, sender: Option<string>, req: AckRequest, id: string)
    requires id in s.alerts
    ensures var t := Commit(s, AckCmd(sender, req));
      id in t.alerts && Evolves(s.alerts[id], t.alerts[id])
  {
  }

  lemma ResolveEvolves(s: State, sender: Option<string>, req: ResolveRequest, id: string)
    requires id in s.alerts
    ensures var t := Commit(s, ResolveCmd(sender, req));
      id in t.alerts && Evolves(s.alerts[id], t.alerts[id])
  {
    var r := Resolve(s, sender, req);
    if r.Success? && NormalizeAlertId(req.alertId) == id {
      var before := s.alerts[id];
      var after := r.value.alerts[id];
      assert after.status == Resolved && before.status != Resolved;
      TransitionsMoveForward(before.status, after.status);
    }
  }

  /** Per alert transaction (raise, ack or resolve): no alert disappears,
      each alert evolves only as `Evolves` allows, and the timer never
      changes; only the timer feature, which is not a `Command`, writes it. */
  lemma StepEffects(s: State, c: Command, id: string)
    requires id in s.alerts
    ensures var t := Commit(s, c);
      id in t.alerts && Evolves(s.alerts[id], t.alerts[id]) && t.timer == s.timer
  {
    match c
    case RaiseCmd(sender, req) => RaiseEvolves(s, sender, req, id);
    case AckCmd(sender, req) => AckEvolves(s, sender, req, id);
    case ResolveCmd(sender, req) => ResolveEvolves(s, sender, req, id);
  }

  /** A resolved alert is never changed again by any transaction. */
  lemma ResolvedIsTerminal(s: State, c: Command, id: string)
    requires id in s.alerts && s.alerts[id].status == Resolved
    ensures id in Commit(s, c).alerts && Commit(s, c).alerts[id] == s.alerts[id]
  {
    StepEffects(s, c, id);
    TransitionsMoveForward(Resolved, Commit(s, c).alerts[id].status);
  }

  /** The index is append-only: each transaction leaves it as it was or
      adds one id at its end, and only a raise changes it. */
  lemma StepIndexAppendOnly(s: State, c: Command)
    ensures var t := Commit(s, c);
      && (t.index == s.index || (c.RaiseCmd? && t.index == s.index + [NormalizeAlertId(c.raise.alertId)]))
  {
  }

  lemma {:induction false} RunPreservesValid(s: State, cs: seq<Command>)
    requires Valid(s)
    ensures Valid(Run(s, cs))
    decreases |cs|
  {
    if cs != [] {
      StepPreservesValid(s, cs[0]);
      RunPreservesValid(Commit(s, cs[0]), cs[1..]);
    }
  }

  /** Over any run the old index stays a prefix of the new one, which grows by
      at most one entry per transaction. */
  lemma {:induction false} RunIndexAppendOnly(s: State, cs: seq<Command>)
    ensures var t := Run(s, cs);
      |s.index| <= |t.index| <= |s.index| + |cs| && t.index[..|s.index|] == s.index
    decreases |cs|
  {
    if cs != [] {
      var s' := Commit(s, cs[0]);
      StepIndexAppendOnly(s, cs[0]);
      RunIndexAppendOnly(s', cs[1..]);
      assert Run(s, cs) == Run(s', cs[1..]);
      PrefixThroughGrowth(s.index, s'.index, Run(s', cs[1..]).index, |cs| - 1);
    }
  }

  /** Sequence bookkeeping for `RunIndexAppendOnly`: a sequence that grew by
      at most one entry and then by at most `n` more keeps its start. */
  lemma PrefixThroughGrowth(a: seq<string>, b: seq<string>, c: seq<string>, n: nat)
    requires b == a || (|b| == |a| + 1 && b[..|a|] == a)
    requires |b| <= |c| <= |b| + n && c[..|b|] == b
    ensures |a| <= |c| <= |a| + n + 1 && c[..|a|] == a
  {
    assert c[..|a|] == c[..|b|][..|a|];
  }

  /** Over any run a resolved alert stays exactly as it was. */
  lemma {:induction false} RunResolvedIsTerminal(s: State, cs: seq<Command>, id: string)
    requires id in s.alerts && s.alerts[id].status == Resolved
    ensures id in Run(s, cs).alerts && Run(s, cs).alerts[id] == s.alerts[id]
    decreases |cs|
  {
    if cs != [] {
      ResolvedIsTerminal(s, cs[0], id);
      RunResolvedIsTerminal(Commit(s, cs[0]), cs[1..], id);
    }
  }

  function ElementSet(xs: seq<string>): set<string> {
    set x | x in xs
  }

  lemma {:induction false} NoDuplicatesCardinality(xs: seq<string>)
    requires NoDuplicates(xs)
    ensures |ElementSet(xs)| == |xs|
    decreases |xs|
  {
    if xs != [] {
      var last := xs[|xs| - 1];
      var init := xs[..|xs| - 1];
      assert ElementSet(xs) == ElementSet(init) + {last};
      assert last !in ElementSet(init);
      NoDuplicatesCardinality(init);
    }
  }

  /** The count the snapshot reports is the number of stored alerts. */
  lemma SnapshotCountsAlerts(s: State)
    requires Valid(s)
    ensures ReadSnapshot(s).alertCount == |s.alerts|
    ensures ReadSnapshot(s).alertLast.Some? ==> ReadSnapshot(s).alertLast.value in s.alerts.Values
  {
    NoDuplicatesCardinality(s.index);
    assert ElementSet(s.index) == s.alerts.Keys;
  }

  /** After a raise the new alert heads the unfiltered walk, followed by the
      walk as it was before. */
  lemma RaisedAlertWalkedFirst(s: State, sender: Option<string>, req: RaiseRequest)
    requires Valid(s)
    requires Raise(s, sender, req).Success?
    ensures var t := Raise(s, sender, req).value;
      var id := NormalizeAlertId(req.alertId);
      Candidates(t.alerts, t.index, AnyStatus) == [t.alerts[id]] + Candidates(s.alerts, s.index, AnyStatus)
  {
    var t := Raise(s, sender, req).value;
    var id := NormalizeAlertId(req.alertId);
    RaisePreservesValid(s, sender, req);
    assert id !in s.index;
    CandidatesAppend(t.alerts, s.index, id, AnyStatus);
    assert t.alerts == s.alerts[id := t.alerts[id]];
    CandidatesIgnoreUnindexed(s.alerts, s.index, id, t.alerts[id], AnyStatus);
  }

  /** So `listAlerts` right after a raise lists the new alert first. */
  lemma RaisedAlertListedFirst(s: State, sender: Option<string>, req: RaiseRequest, limit: Option<string>)
    requires Valid(s)
    requires Raise(s, sender, req).Success?
    ensures var t := Raise(s, sender, req).value;
      var items := ListAlerts(t, limit).items;
      |items| > 0 && items[0] == t.alerts[NormalizeAlertId(req.alertId)]
  {
    RaisedAlertWalkedFirst(s, sender, req);
  }

  /** Whoever raised an alert may resolve it straight away. */
  lemma RaiserMayResolve(s: State, sender: Option<string>, req: RaiseRequest, res: ResolveRequest)
    requires Raise(s, sender, req).Success?
    requires NormalizeAlertId(res.alertId) == NormalizeAlertId(req.alertId)
    ensures Resolve(Raise(s, sender, req).value, sender, res).Success?
  {
  }

  /** Whoever acknowledged an alert may then resolve it. */
  lemma AckerMayResolve(s: State, sender: Option<string>, ack: AckRequest, res: ResolveRequest)
    requires Ack(s, sender, ack).Success?
    requires NormalizeAlertId(res.alertId) == NormalizeAlertId(ack.alertId)
    ensures Resolve(Ack(s, sender, ack).value, sender, res).Success?
  {
  }
}

=== FILE: json.dfy ===
/** Parsed JSON values, and the two JavaScript conversions the router applies
    to the `op` field of a parsed command: truthiness (`x || ''`) and
    `String(x)`. Numbers are integers; parsing itself is not modelled here
    (the router takes the parser as a parameter). */
module Json {
  import Text

  datatype Json =
    | JNull
    | JBool(b: bool)
    | JNumber(n: int)
    | JString(s: string)
    | JArray(items: seq<Json>)
    | JObject(fields: map<string, Json>)

  /** JavaScript truthiness: `null`, `false`, `0` and `""` are falsy. */
  predicate Truthy(j: Json) {
    match j
    case JNull => false
    case JBool(b) => b
    case JNumber(n) => n != 0
    case JString(s) => s != ""
    case JArray(_) => true
    case JObject(_) => true
  }

  /** `typeof j === 'object'` for a truthy value: objects and arrays. */
  predicate IsObjectLike(j: Json) {
    j.JObject? || j.JArray?
  }

  /** `String(j)`: arrays are joined with commas, with `null` elements
      rendered empty, and every object renders as `[object Object]`. */
  function JsString(j: Json): (r: string)
    ensures j.JString? ==> r == j.s
    decreases j, 1
  {
    match j
    case JNull => "null"
    case JBool(b) => if b then "true" else "false"
    case JNumber(n) => Text.IntToDecimal(n)
    case JString(s) => s
    case JArray(items) => JoinFrom(j, 0)
    case JObject(_) => "[object Object]"
  }

  /** The elements of array `arr` from position `i` on, as `Array.prototype.join`
      renders them. */
  function JoinFrom(arr: Json, i: nat): string
    requires arr.JArray? && i <= |arr.items|
    decreases arr, 0, |arr.items| - i
  {
    if i == |arr.items| then ""
    else
      var e := arr.items[i];
      var text := if e.JNull? then "" else JsString(e);
      if i + 1 == |arr.items| then text else text + "," + JoinFrom(arr, i + 1)
  }

  /** `String` of a one-element array is the text of its element (empty
      for `null`). */
  lemma JsStringSingleton(e: Json)
    ensures JsString(JArray([e])) == if e.JNull? then "" else JsString(e)
  {
    assert JsString(JArray([e])) == JoinFrom(JArray([e]), 0);
  }

  /** `String(obj.op || '')` for a parsed command: the text of a truthy `op`
      field, or the empty string (also for arrays, which have no `op`). */
  function OpText(j: Json): (r: string)
    ensures r != "" ==> j.JObject? && "op" in j.fields && Truthy(j.fields["op"])
    ensures j.JObject? && "op" in j.fields && j.fields["op"].JString? ==> r == j.fields["op"].s
  {
    if j.JObject? && "op" in j.fields && Truthy(j.fields["op"]) then JsString(j.fields["op"]) else ""
  }

  /** An `op` given as a one-element array of a string reads as that string:
      `{"op": ["alert_raise"]}` names `alert_raise`. */
  lemma OpTextSingletonArray(x: string)
    requires x != ""
    ensures OpText(JObject(map["op" := JArray([JString(x)])])) == x
  {
    JsStringSingleton(JString(x));
  }
}

=== FILE: queries.dfy ===
/** The list queries of `contract/contract.js`: `listAlerts` and
    `listAlertsByStatus`. Both walk the alert index from its newest entry
    back, skip ids whose alert is missing (and, for the second, alerts with
    another status), and stop once `limit` alerts are collected. */
module AlertQueries {
  import opened Wrappers
  import opened Text
  import opened Alerts

  /** Which alerts a walk keeps. */
  datatype Filter = AnyStatus | StatusIs(status: string)

  /** `String(alert.status || '').toLowerCase() === status` for a by-status
      walk; every alert for a plain one. */
  predicate Keeps(f: Filter, a: Alert) {
    match f
    case AnyStatus => true
    case StatusIs(q) => ToLower(a.status.Name()) == q
  }

  /** Every alert the walk over `ids` would keep, newest (last in `ids`)
      first, with no limit: the reference the loop is measured against. */
  function Candidates(alerts: map<string, Alert>, ids: seq<string>, f: Filter): (r: seq<Alert>)
    ensures |r| <= |ids|
    decreases |ids|
  {
    if ids == [] then []
    else
      var rest := Candidates(alerts, ids[1..], f);
      if ids[0] in alerts && Keeps(f, alerts[ids[0]]) then rest + [alerts[ids[0]]] else rest
  }

  /** The first `n` elements of `xs`, or all of them when there are fewer. */
  function Take(xs: seq<Alert>, n: nat): (r: seq<Alert>)
    ensures |r| == if n < |xs| then n else |xs|
    ensures r == xs[..|r|]
  {
    if n < |xs| then xs[..n] else xs
  }

  /** The limit a list query uses: a parsed limit clamped into [1, 200], or
      20 when the limit did not parse. */
  function ClampLimit(requested: Option<int>): (limit: nat)
    ensures 1 <= limit <= 200
    ensures requested.None? ==> limit == 20
    ensures requested.Some? && 1 <= requested.value <= 200 ==> limit == requested.value
    ensures requested.Some? && requested.value < 1 ==> limit == 1
    ensures requested.Some? && requested.value > 200 ==> limit == 200
  {
    if requested.None? then 20
    else if requested.value < 1 then 1
    else if requested.value > 200 then 200
    else requested.value
  }

  /** `parseInt(String(limit ?? '20'), 10)`: an absent limit reads as 20. */
  function RequestedLimit(limit: Option<string>): (r: Option<int>)
    ensures limit.None? ==> r == Some(20)
    ensures limit.Some? ==> r == ParseIntPrefix(limit.value)
  {
    DefaultLimitParses();
    ParseIntPrefix(limit.GetOr("20"))
  }

  /** A limit given as the decimal form of `n` is read as `n`. */
  lemma RequestedLimitReadsDecimal(n: int)
    ensures RequestedLimit(Some(IntToDecimal(n))) == Some(n)
  {
    assert IntToDecimal(n) + "" == IntToDecimal(n);
    ParseIntDecimal(n, "");
  }

  lemma DefaultLimitParses()
    ensures ParseIntPrefix("20") == Some(20)
  {
    var d := "20";
    assert d + "" == d;
    assert d[..1] == "2" && "2"[..0] == "";
    assert DigitsValue(d) == 20;
    ParseUnsigned(d, "");
  }

  /** The loop of `listAlerts` / `listAlertsByStatus`: it returns the first
      `limit` alerts of the newest-first walk, no more. */
  method CollectNewest(alerts: map<string, Alert>, index: seq<string>, f: Filter, limit: nat)
    returns (items: seq<Alert>)
    ensures items == Take(Candidates(alerts, index, f), limit)
  {
    var i := |index|;
    items := [];
    while i > 0 && |items| < limit
      invariant 0 <= i <= |index|
      invariant items == Candidates(alerts, index[i..], f)
      invariant |items| <= limit
      decreases i
    {
      i := i - 1;
      var id := index[i];
      assert index[i..][1..] == index[i + 1..];
      if id in alerts && Keeps(f, alerts[id]) {
        items := items + [alerts[id]];
      }
    }
    CandidatesOfSuffix(alerts, index, i, f);
    assert index[0..] == index;
  }

  /** The walk over a suffix of the index is a prefix of the walk over the
      whole index: older entries only add alerts at the end. */
  lemma {:induction false} CandidatesOfSuffix(alerts: map<string, Alert>, ids: seq<string>, i: nat, f: Filter)
    requires i <= |ids|
    ensures var c := Candidates(alerts, ids[i..], f);
      |c| <= |Candidates(alerts, ids, f)| && Candidates(alerts, ids, f)[..|c|] == c
    decreases i
  {
    if i > 0 {
      assert ids[1..][i - 1..] == ids[i..];
      CandidatesOfSuffix(alerts, ids[1..], i - 1, f);
    } else {
      assert ids[i..] == ids;
    }
  }

  /** An alert is in the walk exactly when some index entry names it in the
      store and the filter keeps it. */
  lemma {:induction false} CandidatesMembers(alerts: map<string, Alert>, ids: seq<string>, f: Filter, a: Alert)
    ensures a in Candidates(alerts, ids, f) <==>
      (Keeps(f, a) && exists k :: 0 <= k < |ids| && ids[k] in alerts && alerts[ids[k]] == a)
    decreases |ids|
  {
    if ids != [] {
      CandidatesMembers(alerts, ids[1..], f, a);
      if exists k :: 0 <= k < |ids| && ids[k] in alerts && alerts[ids[k]] == a {
        var k :| 0 <= k < |ids| && ids[k] in alerts && alerts[ids[k]] == a;
        if k > 0 {
          assert ids[1..][k - 1] == ids[k];
        }
      }
      if exists k :: 0 <= k < |ids[1..]| && ids[1..][k] in alerts && alerts[ids[1..][k]] == a {
        var k :| 0 <= k < |ids[1..]| && ids[1..][k] in alerts && alerts[ids[1..][k]] == a;
        assert ids[k + 1] == ids[1..][k];
      }
    }
  }

  /** An id appended to the index is walked first. */
  lemma {:induction false} CandidatesAppend(alerts: map<string, Alert>, ids: seq<string>, id: string, f: Filter)
    ensures Candidates(alerts, ids + [id], f) ==
      (if id in alerts && Keeps(f, alerts[id]) then [alerts[id]] else []) + Candidates(alerts, ids, f)
    decreases |ids|
  {
    if ids == [] {
      assert [] + [id] == [id];
      assert [id][1..] == [];
    } else {
      assert (ids + [id])[1..] == ids[1..] + [id];
      CandidatesAppend(alerts, ids[1..], id, f);
    }
  }

  /** Storing an alert under an id the index does not name does not change
      the walk. */
  lemma {:induction false} CandidatesIgnoreUnindexed(alerts: map<string, Alert>, ids: seq<string>, id: string, a: Alert, f: Filter)
    requires id !in ids
    ensures Candidates(alerts[id := a], ids, f) == Candidates(alerts, ids, f)
    decreases |ids|
  {
    if ids != [] {
      assert ids[0] != id;
      CandidatesIgnoreUnindexed(alerts, ids[1..], id, a, f);
    }
  }

  /** What a list query reports: the total it prints, the limit it used and
      the alerts it collected. */
  datatype Listing = Listing(total: nat, limit: nat, items: seq<Alert>)

  /** `listAlerts`: at most `limit` stored alerts, newest first; the total
      is the index length. */
  function ListAlerts(s: State, limit: Option<string>): (r: Listing)
    ensures 1 <= r.limit <= 200 && |r.items| <= r.limit
    ensures r.limit == ClampLimit(RequestedLimit(limit))
    ensures limit.None? ==> r.limit == 20
    ensures limit.Some? && ParseIntPrefix(limit.value).None? ==> r.limit == 20
    ensures r.total == |s.index|
    ensures r.items == Take(Candidates(s.alerts, s.index, AnyStatus), r.limit)
  {
    var lim := ClampLimit(RequestedLimit(limit));
    Listing(|s.index|, lim, Take(Candidates(s.alerts, s.index, AnyStatus), lim))
  }

  /** `String(status || '').trim().toLowerCase()`. */
  function NormalizeStatus(status: Option<string>): (r: string)
    ensures HasNoUpper(r)
    ensures r == "" <==> status.None? || AllWhitespace(status.value)
    ensures status.Some? && Trimmed(status.value) && HasNoUpper(status.value) ==> r == status.value
    ensures status.Some? ==> r == ToLower(Trim(status.value))
  {
    var raw := OrEmpty(status);
    assert status.Some? ==> raw == status.value;
    var t := Trim(raw);
    assert HasNoUpper(t) ==> ToLower(t) == t by {
      if HasNoUpper(t) {
        ToLowerIdentity(t);
      }
    }
    ToLower(t)
  }

  /** For instance, `" Open "` asks for the open alerts. */
  lemma NormalizeStatusExample()
    ensures NormalizeStatus(Some(" Open ")) == "open"
  {
    var raw := " Open ";
    assert raw[1..5] == "Open" && raw[..1] == " " && raw[5..] == " ";
    TrimUnique(raw, 1, "Open");
    OpenLowerCase();
  }

  lemma OpenLowerCase()
    ensures ToLower("Open") == "open"
  {
    var r := ToLower("Open");
    assert "Open"[0] == 'O' && "Open"[1] == 'p' && "Open"[2] == 'e' && "Open"[3] == 'n';
    assert r[0] == 'o' && r[1] == 'p' && r[2] == 'e' && r[3] == 'n';
  }

  /** `listAlertsByStatus`: an empty status is an error; otherwise at most
      `limit` stored alerts whose status is the query, newest first. The
      total it reports is the number collected, not the index length. */
  function ListAlertsByStatus(s: State, status: Option<string>, limit: Option<string>): (r: Result<Listing, Error>)
    ensures r.Failure? <==> NormalizeStatus(status) == ""
    ensures r.Failure? ==> r.error == MissingStatus
    ensures r.Success? ==>
      && 1 <= r.value.limit <= 200 && |r.value.items| <= r.value.limit
      && r.value.total == |r.value.items|
      && r.value.limit == ClampLimit(RequestedLimit(limit))
      && r.value.items == Take(Candidates(s.alerts, s.index, StatusIs(NormalizeStatus(status))), r.value.limit)
    ensures r.Success? ==>
      forall i :: 0 <= i < |r.value.items| ==> r.value.items[i].status.Name() == NormalizeStatus(status)
  {
    var q := NormalizeStatus(status);
    if q == "" then Failure(MissingStatus)
    else
      var lim := ClampLimit(RequestedLimit(limit));
      var items := Take(Candidates(s.alerts, s.index, StatusIs(q)), lim);
      ListingKeepsOnly(s.alerts, s.index, q, lim);
      Success(Listing(|items|, lim, items))
  }

  /** A limit text that does not open with an integer once its leading
      whitespace is skipped lists with the default limit 20. */
  lemma ListAlertsNoNumber(s: State, text: string)
    requires !StartsWithNumber(TrimStart(text))
    ensures ListAlerts(s, Some(text)).limit == 20
  {
    ParseIntNone(text);
  }

  /** A limit given as the integer `n` is clamped into [1, 200]: 500 lists
      at most 200 alerts, 50 at most 50, and 0 or less at most one. */
  lemma ListAlertsClampsLimit(s: State, n: int)
    ensures var lim := ListAlerts(s, Some(IntToDecimal(n))).limit;
      && (n < 1 ==> lim == 1)
      && (1 <= n <= 200 ==> lim == n)
      && (n > 200 ==> lim == 200)
  {
    RequestedLimitReadsDecimal(n);
  }

  /** The by-status listing lists every alert with the queried status up to
      the limit: an alert of that status in the store and the index is
      listed whenever fewer than `limit` alerts match in all. */
  lemma ByStatusListsAllMatches(s: State, status: Option<string>, limit: Option<string>, a: Alert)
    requires NormalizeStatus(status) != ""
    requires a.status.Name() == NormalizeStatus(status)
    requires exists k :: 0 <= k < |s.index| && s.index[k] in s.alerts && s.alerts[s.index[k]] == a
    requires |Candidates(s.alerts, s.index, StatusIs(NormalizeStatus(status)))| <= ClampLimit(RequestedLimit(limit))
    ensures ListAlertsByStatus(s, status, limit).Success?
    ensures a in ListAlertsByStatus(s, status, limit).value.items
  {
    var q := NormalizeStatus(status);
    var c := Candidates(s.alerts, s.index, StatusIs(q));
    KeepsByStatus(q, a);
    CandidatesMembers(s.alerts, s.index, StatusIs(q), a);
    var r := ListAlertsByStatus(s, status, limit);
    assert r.value.items == Take(c, r.value.limit) == c;
  }

  lemma NamesAreLowerCase(st: Status)
    ensures ToLower(st.Name()) == st.Name()
  {
    ToLowerIdentity(st.Name());
  }

  /** A by-status walk keeps exactly the alerts whose status is the query. */
  lemma KeepsByStatus(q: string, a: Alert)
    ensures Keeps(StatusIs(q), a) <==> a.status.Name() == q
  {
    NamesAreLowerCase(a.status);
  }

  lemma ListingKeepsOnly(alerts: map<string, Alert>, ids: seq<string>, q: string, n: nat)
    ensures forall i :: 0 <= i < |Take(Candidates(alerts, ids, StatusIs(q)), n)| ==>
      Take(Candidates(alerts, ids, StatusIs(q)), n)[i].status.Name() == q
  {
    var c := Candidates(alerts, ids, StatusIs(q));
    forall i | 0 <= i < |Take(c, n)|
      ensures Take(c, n)[i].status.Name() == q
    {
      CandidatesMembers(alerts, ids, StatusIs(q), c[i]);
      KeepsByStatus(q, c[i]);
    }
  }

  /** The status query is case- and whitespace-insensitive: lower-casing it
      first gives the same answer. */
  lemma StatusQueryCaseInsensitive(s: State, status: string, limit: Option<string>)
    ensures ListAlertsByStatus(s, Some(status), limit) == ListAlertsByStatus(s, Some(ToLower(status)), limit)
  {
    TrimToLower(status);
    ToLowerIdempotent(Trim(status));
  }

  /** A status that is not one of the three lifecycle names lists nothing. */
  lemma UnknownStatusListsNothing(s: State, status: Option<string>, limit: Option<string>)
    requires NormalizeStatus(status) != ""
    requires forall st: Status :: st.Name() != NormalizeStatus(status)
    ensures ListAlertsByStatus(s, status, limit).Success?
    ensures ListAlertsByStatus(s, status, limit).value.items == []
  {
    var c := Candidates(s.alerts, s.index, StatusIs(NormalizeStatus(status)));
    if c != [] {
      CandidatesMembers(s.alerts, s.index, StatusIs(NormalizeStatus(status)), c[0]);
      KeepsByStatus(NormalizeStatus(status), c[0]);
    }
  }
}

=== FILE: router.dfy ===
/** `mapTxCommand` of `contract/protocol.js`: classifies a text command as
    one of the contract's operations, or rejects it. The rules are tried in
    order: exact keywords, then the `alert_list:`, `alert_read:` and
    `alert_status:` prefixes, then a JSON object whose `op` names an
    operation. The router reads and writes no store; the JSON parser it
    calls is a parameter. */
module Router {
  import opened Wrappers
  import opened Text
  import opened Json

  /** The `type` of a routed command: which contract function runs. */
  datatype OpKind =
    | ReadSnapshot
    | ReadTimer
    | ListAlerts
    | ReadAlert
    | ListAlertsByStatus
    | AlertRaise
    | AlertAck
    | AlertResolve

  /** The `value` of a routed command. The shorthand forms build the
      payloads `{op: 'list_alerts', limit}`, `{op: 'read_alert', alertId}`
      and `{op: 'list_alerts_by_status', status, limit}`; a JSON command
      passes on the whole parsed object. */
  datatype Payload =
    | NoPayload
    | ListRequest(limit: int)
    | ReadRequest(alertId: string)
    | StatusRequest(status: string, limit: int)
    | Parsed(json: Json)

  datatype Route = Route(kind: OpKind, value: Payload)

  /** The operations that change the store. */
  predicate Mutating(k: OpKind) {
    k.AlertRaise? || k.AlertAck? || k.AlertResolve?
  }

  const DefaultLimit: int := 20

  const ListPrefix: string := "alert_list:"
  const ReadPrefix: string := "alert_read:"
  const StatusPrefix: string := "alert_status:"

  const Keywords: set<string> := {"alert_snapshot", "read_snapshot", "read_timer", "alert_list", "list_alerts"}

  /** The JSON `op` names the router recognises, and what each selects. */
  const JsonOps: map<string, OpKind> := map[
    "alert_raise" := AlertRaise,
    "alert_ack" := AlertAck,
    "alert_resolve" := AlertResolve,
    "read_alert" := ReadAlert,
    "list_alerts" := ListAlerts,
    "list_alerts_by_status" := ListAlertsByStatus,
    "read_snapshot" := ReadSnapshot]

  /** A trimmed command handled by the keyword or prefix rules, before any
      JSON parsing. */
  predicate IsShorthand(cmd: string) {
    cmd in Keywords || StartsWith(cmd, ListPrefix) || StartsWith(cmd, ReadPrefix) || StartsWith(cmd, StatusPrefix)
  }

  /** `String(json.op || '').trim().toLowerCase()`. */
  function OpName(json: Json): (r: string)
    ensures HasNoUpper(r)
    ensures !json.JObject? || "op" !in json.fields || !Truthy(json.fields["op"]) ==> r == ""
    ensures json.JObject? && "op" in json.fields && json.fields["op"].JString? ==>
      r == ToLower(Trim(json.fields["op"].s))
  {
    ToLower(Trim(OpText(json)))
  }

  /** The `op` dispatch of the JSON rule: each recognised name selects its
      operation as the table says, with the parsed object as payload except
      for `read_snapshot`; every other name is rejected. */
  function RouteOp(op: string, json: Json): (r: Option<Route>)
    ensures r.Some? <==> op in JsonOps
    ensures r.Some? ==> r.value.kind == JsonOps[op]
    ensures r.Some? ==> r.value.value == if op == "read_snapshot" then NoPayload else Parsed(json)
    ensures r.Some? && r.value.kind != ReadSnapshot ==> r.value.value == Parsed(json)
  {
    if op == "" then None
    else if op == "alert_raise" then Some(Route(AlertRaise, Parsed(json)))
    else if op == "alert_ack" then Some(Route(AlertAck, Parsed(json)))
    else if op == "alert_resolve" then Some(Route(AlertResolve, Parsed(json)))
    else if op == "read_alert" then Some(Route(ReadAlert, Parsed(json)))
    else if op == "list_alerts" then Some(Route(ListAlerts, Parsed(json)))
    else if op == "list_alerts_by_status" then Some(Route(ListAlertsByStatus, Parsed(json)))
    else if op == "read_snapshot" then Some(Route(ReadSnapshot, NoPayload))
    else None
  }

  /** The JSON rule, for a command the earlier rules did not take: a parse
      failure or a value that is not an object is rejected. */
  function RouteJson(parsed: Option<Json>): (r: Option<Route>)
    ensures parsed.None? || !IsObjectLike(parsed.value) ==> r.None?
    ensures r.Some? ==> r.value.value == NoPayload || r.value.value == Parsed(parsed.value)
    ensures r.Some? && r.value.kind != ReadSnapshot ==> parsed.Some? && r.value.value == Parsed(parsed.value)
  {
    if parsed.None? || !IsObjectLike(parsed.value) then None
    else RouteOp(OpName(parsed.value), parsed.value)
  }

  /** `alert_list:<n>`: the limit is the integer `parseInt` reads from the
      trimmed suffix, or 20 when it reads none. */
  function ListRoute(suffix: string): (r: Option<Route>)
    ensures r.Some? && r.value.kind == ListAlerts && r.value.value.ListRequest?
    ensures ParseIntPrefix(Trim(suffix)).None? ==> r.value.value.limit == DefaultLimit
    ensures ParseIntPrefix(Trim(suffix)).Some? ==> r.value.value.limit == ParseIntPrefix(Trim(suffix)).value
  {
    var parsedLimit := ParseIntPrefix(Trim(suffix));
    Some(Route(ListAlerts, ListRequest(parsedLimit.GetOr(DefaultLimit))))
  }

  /** `alert_read:<id>`: the trimmed id, which must not be empty. */
  function ReadRoute(suffix: string): (r: Option<Route>)
    ensures r.None? <==> AllWhitespace(suffix)
    ensures r.Some? ==> r.value.kind == ReadAlert && r.value.value == ReadRequest(Trim(suffix))
    ensures r.Some? ==> r.value.value.alertId != "" && Trimmed(r.value.value.alertId)
  {
    var alertId := Trim(suffix);
    if alertId == "" then None else Some(Route(ReadAlert, ReadRequest(alertId)))
  }

  /** `alert_status:<s>`: the trimmed, lower-cased status, which must not be
      empty, with the default limit. */
  function StatusRoute(suffix: string): (r: Option<Route>)
    ensures r.None? <==> AllWhitespace(suffix)
    ensures r.Some? ==> r.value.kind == ListAlertsByStatus && r.value.value == StatusRequest(ToLower(Trim(suffix)), DefaultLimit)
    ensures r.Some? ==> r.value.value.status != "" && HasNoUpper(r.value.value.status)
  {
    var status := ToLower(Trim(suffix));
    if status == "" then None else Some(Route(ListAlertsByStatus, StatusRequest(status, DefaultLimit)))
  }

  /** The keyword and prefix rules, in the order they are tried. They
      produce only queries. */
  function RouteShorthand(cmd: string): (r: Option<Route>)
    ensures r.Some? ==> !Mutating(r.value.kind)
  {
    if cmd == "alert_snapshot" || cmd == "read_snapshot" then Some(Route(ReadSnapshot, NoPayload))
    else if cmd == "read_timer" then Some(Route(ReadTimer, NoPayload))
    else if cmd == "alert_list" || cmd == "list_alerts" then Some(Route(ListAlerts, ListRequest(DefaultLimit)))
    else if StartsWith(cmd, ListPrefix) then ListRoute(cmd[|ListPrefix|..])
    else if StartsWith(cmd, ReadPrefix) then ReadRoute(cmd[|ReadPrefix|..])
    else if StartsWith(cmd, StatusPrefix) then StatusRoute(cmd[|StatusPrefix|..])
    else None
  }

  /** `mapTxCommand`: the trimmed command goes to the keyword and prefix
      rules when one applies, and only otherwise to the parser. So only a
      JSON command can route to raise, ack or resolve. */
  function MapTxCommand(command: string, parse: string -> Option<Json>): (r: Option<Route>)
    ensures r.Some? && Mutating(r.value.kind) ==>
      parse(Trim(command)).Some? && r.value.value == Parsed(parse(Trim(command)).value)
  {
    var cmd := Trim(command);
    if IsShorthand(cmd) then RouteShorthand(cmd) else RouteJson(parse(cmd))
  }

  /** Surrounding whitespace never changes the route. */
  lemma TrimInvariant(command: string, parse: string -> Option<Json>)
    ensures MapTxCommand(command, parse) == MapTxCommand(Trim(command), parse)
  {
    TrimIdempotent(command);
  }

  /** Keyword and prefix commands are settled before any parsing: whatever
      the parser would say, they route the same. */
  lemma ShorthandIgnoresParser(command: string, p1: string -> Option<Json>, p2: string -> Option<Json>)
    requires IsShorthand(Trim(command))
    ensures MapTxCommand(command, p1) == MapTxCommand(command, p2)
  {
  }

  /** Any other command routes exactly by the `op` of the object it parses
      to: a recognised name selects its operation from the table, with the
      whole object as payload (none for `read_snapshot`); an unrecognised or
      empty name, a parse failure or a non-object is rejected. */
  lemma JsonRoutesByTable(command: string, parse: string -> Option<Json>)
    requires !IsShorthand(Trim(command))
    ensures var parsed := parse(Trim(command));
      var r := MapTxCommand(command, parse);
      && (parsed.None? || !IsObjectLike(parsed.value) ==> r.None?)
      && (parsed.Some? && IsObjectLike(parsed.value) ==>
            var op := OpName(parsed.value);
            && (r.Some? <==> op in JsonOps)
            && (r.Some? ==> r.value.kind == JsonOps[op]
                            && r.value.value == (if op == "read_snapshot" then NoPayload else Parsed(parsed.value))))
  {
  }

  /** The `op` is matched case- and whitespace-insensitively. */
  lemma OpNameCaseInsensitive(op: string)
    ensures OpName(JObject(map["op" := JString(op)])) == OpName(JObject(map["op" := JString(ToLower(op))]))
  {
    assert OpText(JObject(map["op" := JString(op)])) == op;
    assert OpText(JObject(map["op" := JString(ToLower(op))])) == ToLower(op);
    TrimToLower(op);
    ToLowerIdempotent(Trim(op));
  }

  /** The exact keywords: two names for the snapshot, the timer, and two
      names for the default listing of 20 alerts. */
  lemma SnapshotKeywords(parse: string -> Option<Json>)
    ensures MapTxCommand("alert_snapshot", parse) == Some(Route(ReadSnapshot, NoPayload))
    ensures MapTxCommand("read_snapshot", parse) == Some(Route(ReadSnapshot, NoPayload))
  {
    AlertSnapshotKeyword(parse);
    ReadSnapshotKeyword(parse);
  }

  lemma AlertSnapshotKeyword(parse: string -> Option<Json>)
    ensures MapTxCommand("alert_snapshot", parse) == Some(Route(ReadSnapshot, NoPayload))
  {
    KeywordRoutes("alert_snapshot", parse);
  }

  lemma ReadSnapshotKeyword(parse: string -> Option<Json>)
    ensures MapTxCommand("read_snapshot", parse) == Some(Route(ReadSnapshot, NoPayload))
  {
    KeywordRoutes("read_snapshot", parse);
  }

  lemma TimerKeyword(parse: string -> Option<Json>)
    ensures MapTxCommand("read_timer", parse) == Some(Route(ReadTimer, NoPayload))
  {
    KeywordRoutes("read_timer", parse);
  }

  lemma ListKeywords(parse: string -> Option<Json>)
    ensures MapTxCommand("alert_list", parse) == Some(Route(ListAlerts, ListRequest(DefaultLimit)))
    ensures MapTxCommand("list_alerts", parse) == Some(Route(ListAlerts, ListRequest(DefaultLimit)))
  {
    AlertListKeyword(parse);
    ListAlertsKeyword(parse);
  }

  lemma AlertListKeyword(parse: string -> Option<Json>)
    ensures MapTxCommand("alert_list", parse) == Some(Route(ListAlerts, ListRequest(DefaultLimit)))
  {
    KeywordRoutes("alert_list", parse);
    assert "alert_list" != "read_timer" by {
      assert "alert_list"[0] != "read_timer"[0];
    }
  }

  lemma ListAlertsKeyword(parse: string -> Option<Json>)
    ensures MapTxCommand("list_alerts", parse) == Some(Route(ListAlerts, ListRequest(DefaultLimit)))
  {
    KeywordRoutes("list_alerts", parse);
    assert |"list_alerts"| == 11;
  }

  /** A keyword, which starts and ends with a letter, goes to the shorthand
      rules as it is. */
  lemma KeywordRoutes(k: string, parse: string -> Option<Json>)
    requires k in Keywords
    requires 'a' <= k[0] <= 'z' && 'a' <= k[|k| - 1] <= 'z'
    ensures MapTxCommand(k, parse) == RouteShorthand(k)
  {
    assert Trimmed(k);
  }

  /** No whitespace at the end of `s`. Together with `TrimInvariant` this
      covers every command: trimming the whole command strips what follows
      the last visible character. */
  predicate NoTrailingSpace(s: string) {
    s == [] || !IsWhitespace(s[|s| - 1])
  }

  /** A prefix followed by a suffix without trailing whitespace is already
      trimmed. */
  lemma PrefixedTrimmed(p: string, suffix: string)
    requires p != [] && Trimmed(p)
    requires NoTrailingSpace(suffix)
    ensures Trim(p + suffix) == p + suffix
    ensures (p + suffix)[|p|..] == suffix
    ensures StartsWith(p + suffix, p)
  {
    var s := p + suffix;
    assert s[0] == p[0];
    assert s[|s| - 1] == if suffix == [] then p[|p| - 1] else suffix[|suffix| - 1];
    assert s[..|p|] == p;
  }

  /** `alert_list:<n>` routes to `listAlerts` with limit `n`, for every
      integer `n`, whatever non-digit text follows it (the router does not
      clamp the limit). */
  lemma ListShorthandLimit(n: int, rest: string, parse: string -> Option<Json>)
    requires rest == [] || !IsDigit(rest[0])
    requires NoTrailingSpace(IntToDecimal(n) + rest)
    ensures MapTxCommand(ListPrefix + IntToDecimal(n) + rest, parse) == Some(Route(ListAlerts, ListRequest(n)))
  {
    var suffix := IntToDecimal(n) + rest;
    assert ListPrefix + IntToDecimal(n) + rest == ListPrefix + suffix;
    DecimalTrimmed(n, rest);
    ParseIntDecimal(n, rest);
    ListShorthandRoutes(suffix, parse);
  }

  /** The decimal form of an integer starts with `-` or a digit, so a
      suffix made of it has no leading whitespace. */
  lemma DecimalTrimmed(n: int, rest: string)
    requires NoTrailingSpace(IntToDecimal(n) + rest)
    ensures Trim(IntToDecimal(n) + rest) == IntToDecimal(n) + rest
  {
    var suffix := IntToDecimal(n) + rest;
    assert suffix[0] == IntToDecimal(n)[0];
    assert suffix[0] == '-' || IsDigit(suffix[0]);
    assert Trimmed(suffix);
  }

  /** Whatever follows `alert_list:` (up to its trailing whitespace) goes
      to the list rule. */
  lemma ListShorthandRoutes(suffix: string, parse: string -> Option<Json>)
    requires NoTrailingSpace(suffix)
    ensures MapTxCommand(ListPrefix + suffix, parse) == ListRoute(suffix)
  {
    PrefixedTrimmed(ListPrefix, suffix);
    var cmd := ListPrefix + suffix;
    assert cmd != "alert_snapshot" && cmd != "read_snapshot" && cmd != "read_timer" && cmd != "list_alerts" by {
      assert cmd[0] == 'a' && cmd[6] == 'l';
    }
    assert cmd != "alert_list" by {
      assert |cmd| > 10;
    }
    assert RouteShorthand(cmd) == ListRoute(suffix);
  }

  /** A suffix with no leading integer falls back to the default limit
      (`alert_list:` followed by nothing, or by text such as `abc`). */
  lemma ListShorthandDefault(suffix: string, parse: string -> Option<Json>)
    requires NoTrailingSpace(suffix)
    requires ParseIntPrefix(Trim(suffix)) == None
    ensures MapTxCommand(ListPrefix + suffix, parse) == Some(Route(ListAlerts, ListRequest(DefaultLimit)))
  {
    ListShorthandRoutes(suffix, parse);
  }

  /** A suffix whose trimmed text does not open with an integer (no digit
      after the optional sign) falls back to the default limit. */
  lemma ListShorthandNoNumber(suffix: string, parse: string -> Option<Json>)
    requires NoTrailingSpace(suffix)
    requires !StartsWithNumber(Trim(suffix))
    ensures MapTxCommand(ListPrefix + suffix, parse) == Some(Route(ListAlerts, ListRequest(DefaultLimit)))
  {
    TrimStartNoop(Trim(suffix));
    ParseIntNone(Trim(suffix));
    ListShorthandDefault(suffix, parse);
  }

  /** Whatever follows `alert_read:` (up to its trailing whitespace) goes
      to the read rule. */
  lemma ReadShorthandRoutes(suffix: string, parse: string -> Option<Json>)
    requires NoTrailingSpace(suffix)
    ensures MapTxCommand(ReadPrefix + suffix, parse) == ReadRoute(suffix)
  {
    PrefixedTrimmed(ReadPrefix, suffix);
    var cmd := ReadPrefix + suffix;
    assert IsShorthand(cmd);
    assert MapTxCommand(cmd, parse) == RouteShorthand(cmd);
    ReadPrefixRoutes(cmd);
  }

  /** A command carrying the read prefix is no keyword and does not carry
      the list prefix, so the read rule takes it. */
  lemma ReadPrefixRoutes(cmd: string)
    requires StartsWith(cmd, ReadPrefix)
    ensures RouteShorthand(cmd) == ReadRoute(cmd[|ReadPrefix|..])
  {
    assert cmd[0] == 'a' && cmd[7] == 'e';
    assert cmd != "alert_snapshot" && cmd != "read_snapshot" && cmd != "read_timer";
    assert cmd != "list_alerts" && cmd != "alert_list";
    assert !StartsWith(cmd, ListPrefix);
  }

  /** `alert_read:<id>` routes to `readAlert` with the trimmed id, or is
      rejected when the id is blank. */
  lemma ReadShorthand(suffix: string, parse: string -> Option<Json>)
    requires NoTrailingSpace(suffix)
    ensures var r := MapTxCommand(ReadPrefix + suffix, parse);
      && (Trim(suffix) == "" ==> r.None?)
      && (Trim(suffix) != "" ==> r == Some(Route(ReadAlert, ReadRequest(Trim(suffix)))))
  {
    ReadShorthandRoutes(suffix, parse);
  }

  /** Whatever follows `alert_status:` (up to its trailing whitespace) goes
      to the status rule. */
  lemma StatusShorthandRoutes(suffix: string, parse: string -> Option<Json>)
    requires NoTrailingSpace(suffix)
    ensures MapTxCommand(StatusPrefix + suffix, parse) == StatusRoute(suffix)
  {
    PrefixedTrimmed(StatusPrefix, suffix);
    var cmd := StatusPrefix + suffix;
    assert IsShorthand(cmd);
    assert MapTxCommand(cmd, parse) == RouteShorthand(cmd);
    StatusPrefixRoutes(cmd);
  }

  /** A command carrying the status prefix is no keyword and carries
      neither other prefix, so the status rule takes it. */
  lemma StatusPrefixRoutes(cmd: string)
    requires StartsWith(cmd, StatusPrefix)
    ensures RouteShorthand(cmd) == StatusRoute(cmd[|StatusPrefix|..])
  {
    assert cmd[0] == 'a' && cmd[7] == 't';
    assert cmd != "alert_snapshot" && cmd != "read_snapshot" && cmd != "read_timer";
    assert cmd != "list_alerts" && cmd != "alert_list";
    assert !StartsWith(cmd, ListPrefix) && !StartsWith(cmd, ReadPrefix);
  }

  /** `alert_status:<s>` routes to `listAlertsByStatus` with the trimmed,
      lower-cased status and limit 20, or is rejected when it is blank. */
  lemma StatusShorthand(suffix: string, parse: string -> Option<Json>)
    requires NoTrailingSpace(suffix)
    ensures var r := MapTxCommand(StatusPrefix + suffix, parse);
      && (Trim(suffix) == "" ==> r.None?)
      && (Trim(suffix) != "" ==> r == Some(Route(ListAlertsByStatus, StatusRequest(ToLower(Trim(suffix)), DefaultLimit))))
  {
    StatusShorthandRoutes(suffix, parse);
  }
}

=== FILE: text.dfy ===
/** The string primitives the contract and the router rely on, as JavaScript
    defines them: `String.prototype.trim`, `String.prototype.toLowerCase`
    (for the characters that lower-case to ASCII: `A`-`Z` and the KELVIN
    SIGN), `startsWith`, and `Number.parseInt(s, 10)`, together
    with the decimal rendering of an integer that `parseInt` inverts. */
module Text {
  import opened Wrappers

  /** The ECMAScript WhiteSpace and LineTerminator code points: exactly what
      `trim` strips and what `parseInt` skips before the number. */
  predicate IsWhitespace(c: char) {
    var n := c as int;
    || n == 0x09 || n == 0x0A || n == 0x0B || n == 0x0C || n == 0x0D
    || n == 0x20 || n == 0xA0 || n == 0x1680 || (0x2000 <= n <= 0x200A)
    || n == 0x2028 || n == 0x2029 || n == 0x202F || n == 0x205F
    || n == 0x3000 || n == 0xFEFF
  }

  predicate AllWhitespace(s: string) {
    forall i :: 0 <= i < |s| ==> IsWhitespace(s[i])
  }

  /** Neither end of `s` is whitespace: `trim` leaves such a string alone. */
  predicate Trimmed(s: string) {
    s == [] || (!IsWhitespace(s[0]) && !IsWhitespace(s[|s| - 1]))
  }

  /** Drops the leading whitespace: the result is a suffix of `s`, what was
      dropped is all whitespace, and the result does not start with any. */
  function TrimStart(s: string): (r: string)
    ensures |r| <= |s| && r == s[|s| - |r|..]
    ensures AllWhitespace(s[..|s| - |r|])
    ensures r == [] || !IsWhitespace(r[0])
  {
    if |s| > 0 && IsWhitespace(s[0]) then
      var r := TrimStart(s[1..]);
      assert s[..|s| - |r|] == [s[0]] + s[1..][..|s| - 1 - |r|];
      r
    else
      s
  }

  /** Drops the trailing whitespace: the result is a prefix of `s`, what was
      dropped is all whitespace, and the result does not end with any. */
  function TrimEnd(s: string): (r: string)
    ensures |r| <= |s| && r == s[..|r|]
    ensures AllWhitespace(s[|r|..])
    ensures r == [] || !IsWhitespace(r[|r| - 1])
  {
    if |s| > 0 && IsWhitespace(s[|s| - 1]) then
      var r := TrimEnd(s[..|s| - 1]);
      assert s[|r|..] == s[..|s| - 1][|r|..] + [s[|s| - 1]];
      r
    else
      s
  }

  /** `s.trim()`: the result is the part of `s` left once a run of
      whitespace is cut from each end, and it has no whitespace at either
      end; a string that already has none is returned unchanged, and the
      result is empty exactly when `s` is nothing but whitespace. */
  function Trim(s: string): (r: string)
    ensures Trimmed(r)
    ensures Trimmed(s) ==> r == s
    ensures r == [] <==> AllWhitespace(s)
    ensures |r| <= |s|
  {
    var t := TrimStart(s);
    var r := TrimEnd(t);
    TrimCuts(s, t, r);
    r
  }

  /** The facts of `SliceCuts` that `Trim`'s contract states, without the
      slice itself. */
  lemma TrimCuts(s: string, t: string, r: string)
    requires |t| <= |s| && t == s[|s| - |t|..] && AllWhitespace(s[..|s| - |t|])
    requires t == [] || !IsWhitespace(t[0])
    requires |r| <= |t| && r == t[..|r|] && AllWhitespace(t[|r|..])
    requires r == [] || !IsWhitespace(r[|r| - 1])
    ensures Trimmed(r)
    ensures Trimmed(s) ==> r == s
    ensures r == [] <==> AllWhitespace(s)
  {
    SliceCuts(s, t, r);
  }

  /** Cutting a whitespace run off the front of `s` that leaves `t` with no
      whitespace in front, then one off the back of `t` that leaves `r` with
      none behind, leaves a trimmed slice of `s` with whitespace on both
      sides: `s` itself when it was trimmed, and nothing exactly when `s` is
      all whitespace. */
  lemma SliceCuts(s: string, t: string, r: string)
    requires |t| <= |s| && t == s[|s| - |t|..] && AllWhitespace(s[..|s| - |t|])
    requires t == [] || !IsWhitespace(t[0])
    requires |r| <= |t| && r == t[..|r|] && AllWhitespace(t[|r|..])
    requires r == [] || !IsWhitespace(r[|r| - 1])
    ensures SliceBetweenWhitespace(s, |s| - |t|, r)
    ensures Trimmed(r)
    ensures Trimmed(s) ==> r == s
    ensures r == [] <==> AllWhitespace(s)
  {
    var i := |s| - |t|;
    assert s[i + |r|..] == t[|r|..];
    assert r != [] ==> r[0] == t[0];
    if r == [] {
      assert t[|r|..] == t;
      assert s == s[..i] + t;
    }
  }

  /** `r` is the slice of `s` starting at `i`, with only whitespace before
      and after it. */
  predicate SliceBetweenWhitespace(s: string, i: nat, r: string) {
    && i + |r| <= |s| && r == s[i..i + |r|]
    && AllWhitespace(s[..i]) && AllWhitespace(s[i + |r|..])
  }

  /** What `trim` keeps is the slice of `s` left once the whitespace run
      at each end is cut: it starts where the leading run ends. */
  lemma TrimIsSlice(s: string)
    ensures SliceBetweenWhitespace(s, |s| - |TrimStart(s)|, Trim(s))
  {
    SliceCuts(s, TrimStart(s), TrimEnd(TrimStart(s)));
  }

  /** Only one slice fits `Trim`'s description: a trimmed slice of `s`
      with whitespace on both sides is the trimmed text. */
  lemma TrimUnique(s: string, i: nat, r: string)
    requires SliceBetweenWhitespace(s, i, r) && Trimmed(r)
    ensures Trim(s) == r
  {
    var t := Trim(s);
    TrimIsSlice(s);
    SliceUnique(s, i, r, |s| - |TrimStart(s)|, t);
  }

  /** Two trimmed slices of `s`, each with only whitespace around it, are
      the same slice. */
  lemma SliceUnique(s: string, i: nat, r: string, j: nat, t: string)
    requires SliceBetweenWhitespace(s, i, r) && Trimmed(r)
    requires SliceBetweenWhitespace(s, j, t) && Trimmed(t)
    ensures r == t
  {
    assert r != [] ==> s[i] == r[0] && s[i + |r| - 1] == r[|r| - 1];
    assert t != [] ==> s[j] == t[0] && s[j + |t| - 1] == t[|t| - 1];
  }

  /** `trim` is idempotent. */
  lemma TrimIdempotent(s: string)
    ensures Trim(Trim(s)) == Trim(s)
  {
  }

  /** The characters `toLowerCase` maps to an ASCII letter: `A`-`Z`, and
      U+212A KELVIN SIGN, which lower-cases to `k`. Every other character
      either is left alone or lower-cases to a non-ASCII character. */
  predicate IsUpper(c: char) {
    'A' <= c <= 'Z' || c == '\U{212A}'
  }

  /** `toLowerCase` on one character, for the characters that lower-case to
      ASCII; every other character is kept. */
  function LowerChar(c: char): char {
    if 'A' <= c <= 'Z' then (c as int + 32) as char
    else if c == '\U{212A}' then 'k'
    else c
  }

  predicate HasNoUpper(s: string) {
    forall i :: 0 <= i < |s| ==> !IsUpper(s[i])
  }

  /** `s.toLowerCase()`: the same length, each of `A`-`Z` moved to its
      lower-case letter (32 code points on), the KELVIN SIGN to `k`, and
      every other character kept where it was; so no upper-case letter is
      left. */
  function ToLower(s: string): (r: string)
    ensures |r| == |s|
    ensures HasNoUpper(r)
    ensures forall i :: 0 <= i < |s| && 'A' <= s[i] <= 'Z' ==> r[i] as int == s[i] as int + 32
    ensures forall i :: 0 <= i < |s| && s[i] == '\U{212A}' ==> r[i] == 'k'
    ensures forall i :: 0 <= i < |s| && !IsUpper(s[i]) ==> r[i] == s[i]
  {
    seq(|s|, i requires 0 <= i < |s| => LowerChar(s[i]))
  }

  /** A string without upper-case letters is its own lower-case form, so
      lower-casing twice is lower-casing once. */
  lemma ToLowerIdentity(s: string)
    requires HasNoUpper(s)
    ensures ToLower(s) == s
  {
  }

  lemma ToLowerIdempotent(s: string)
    ensures ToLower(ToLower(s)) == ToLower(s)
  {
    ToLowerIdentity(ToLower(s));
  }

  /** Lower-casing never creates or removes whitespace, so trimming and
      lower-casing commute. */
  lemma LowerCharWhitespace(c: char)
    ensures IsWhitespace(LowerChar(c)) == IsWhitespace(c)
  {
  }

  lemma {:induction false} TrimStartToLower(s: string)
    ensures TrimStart(ToLower(s)) == ToLower(TrimStart(s))
    decreases |s|
  {
    if |s| > 0 {
      assert ToLower(s)[0] == LowerChar(s[0]);
      LowerCharWhitespace(s[0]);
      if IsWhitespace(s[0]) {
        assert ToLower(s)[1..] == ToLower(s[1..]);
        TrimStartToLower(s[1..]);
      }
    }
  }

  lemma {:induction false} TrimEndToLower(s: string)
    ensures TrimEnd(ToLower(s)) == ToLower(TrimEnd(s))
    decreases |s|
  {
    if |s| > 0 {
      assert ToLower(s)[|s| - 1] == LowerChar(s[|s| - 1]);
      LowerCharWhitespace(s[|s| - 1]);
      if IsWhitespace(s[|s| - 1]) {
        assert ToLower(s)[..|s| - 1] == ToLower(s[..|s| - 1]);
        TrimEndToLower(s[..|s| - 1]);
      }
    }
  }

  lemma TrimToLower(s: string)
    ensures Trim(ToLower(s)) == ToLower(Trim(s))
  {
    TrimStartToLower(s);
    TrimEndToLower(TrimStart(s));
  }

  /** `s.startsWith(p)`. */
  predicate StartsWith(s: string, p: string) {
    |p| <= |s| && s[..|p|] == p
  }

  predicate IsDigit(c: char) {
    '0' <= c <= '9'
  }

  predicate AllDigits(s: string) {
    forall i :: 0 <= i < |s| ==> IsDigit(s[i])
  }

  function DigitValue(c: char): nat
    requires IsDigit(c)
  {
    c as int - '0' as int
  }

  function DigitChar(d: nat): (c: char)
    requires d < 10
    ensures IsDigit(c) && DigitValue(c) == d
  {
    ('0' as int + d) as char
  }

  /** The longest prefix of `s` made of decimal digits. */
  function DigitPrefix(s: string): (r: string)
    ensures |r| <= |s| && r == s[..|r|]
    ensures AllDigits(r)
    ensures |r| == |s| || !IsDigit(s[|r|])
  {
    if |s| > 0 && IsDigit(s[0]) then [s[0]] + DigitPrefix(s[1..]) else []
  }

  /** The number a string of decimal digits denotes. */
  function DigitsValue(d: string): nat
    requires AllDigits(d)
  {
    if d == [] then 0 else DigitsValue(d[..|d| - 1]) * 10 + DigitValue(d[|d| - 1])
  }

  /** The decimal form of a natural number (`String(n)`): non-empty, only
      digits, and it denotes `n`. */
  function NatToDecimal(n: nat): (r: string)
    ensures |r| > 0 && AllDigits(r)
    ensures DigitsValue(r) == n
  {
    if n < 10 then [DigitChar(n)]
    else
      var p := NatToDecimal(n / 10);
      var r := p + [DigitChar(n % 10)];
      assert r[..|r| - 1] == p;
      r
  }

  /** The decimal form of an integer, with a leading `-` when negative. */
  function IntToDecimal(n: int): string {
    if n < 0 then "-" + NatToDecimal(-n) else NatToDecimal(n)
  }

  /** The unsigned part of `parseInt`: the longest run of leading digits,
      or `None` when `t` does not start with a digit. */
  function ParseDigits(t: string): (r: Option<int>)
    ensures r.None? <==> DigitPrefix(t) == []
    ensures r.Some? ==> r.value == DigitsValue(DigitPrefix(t))
  {
    var d := DigitPrefix(t);
    if d == [] then None else Some(DigitsValue(d))
  }

  /** `Number.parseInt(s, 10)`: skips leading whitespace, reads an optional
      sign and then the longest run of decimal digits; `None` (NaN) when there
      is no digit. Whatever follows the digits is ignored. */
  function ParseIntPrefix(s: string): (r: Option<int>)
    ensures AllWhitespace(s) ==> r == None
  {
    var t := TrimStart(s);
    if |t| > 0 && t[0] == '-' then
      match ParseDigits(t[1..])
      case None => None
      case Some(v) => Some(-v)
    else if |t| > 0 && t[0] == '+' then ParseDigits(t[1..])
    else ParseDigits(t)
  }

  /** `TrimStart` leaves a string that does not start with whitespace
      unchanged. */
  lemma TrimStartNoop(s: string)
    requires s == [] || !IsWhitespace(s[0])
    ensures TrimStart(s) == s
  {
  }

  lemma {:induction false} DigitPrefixOfDigits(d: string, rest: string)
    requires AllDigits(d)
    requires rest == [] || !IsDigit(rest[0])
    ensures DigitPrefix(d + rest) == d
    decreases |d|
  {
    if d == [] {
      assert d + rest == rest;
    } else {
      assert (d + rest)[1..] == d[1..] + rest;
      DigitPrefixOfDigits(d[1..], rest);
    }
  }

  /** The digits read are exactly `d` when a non-digit (or nothing)
      follows it. */
  lemma ParseDigitsOf(d: string, rest: string)
    requires d != [] && AllDigits(d)
    requires rest == [] || !IsDigit(rest[0])
    ensures ParseDigits(d + rest) == Some(DigitsValue(d) as int)
  {
    DigitPrefixOfDigits(d, rest);
  }

  lemma ParseUnsigned(d: string, rest: string)
    requires d != [] && AllDigits(d)
    requires rest == [] || !IsDigit(rest[0])
    ensures ParseIntPrefix(d + rest) == Some(DigitsValue(d) as int)
  {
    var s := d + rest;
    assert s[0] == d[0] && IsDigit(s[0]);
    TrimStartNoop(s);
    ParseDigitsOf(d, rest);
  }

  /** A leading `-` negates what the digits after it read. */
  lemma NegativeSign(u: string, v: int)
    requires ParseDigits(u) == Some(v)
    ensures ParseIntPrefix("-" + u) == Some(-v)
  {
    var s := "-" + u;
    assert s[0] == '-' && s[1..] == u;
    TrimStartNoop(s);
  }

  /** A leading `+` is dropped: what follows it is read as bare digits. */
  lemma PositiveSign(u: string)
    ensures ParseIntPrefix("+" + u) == ParseDigits(u)
  {
    var s := "+" + u;
    assert s[0] == '+' && s[1..] == u;
    TrimStartNoop(s);
  }

  /** What follows one leading `-` or `+`, if there is one. */
  function AfterSign(t: string): (u: string)
    ensures |t| > 0 && (t[0] == '-' || t[0] == '+') ==> u == t[1..]
    ensures (t == [] || (t[0] != '-' && t[0] != '+')) ==> u == t
  {
    if |t| > 0 && (t[0] == '-' || t[0] == '+') then t[1..] else t
  }

  /** `t` opens with an integer: a digit, possibly after one sign. */
  predicate StartsWithNumber(t: string) {
    var u := AfterSign(t);
    |u| > 0 && IsDigit(u[0])
  }

  /** `parseInt` gives NaN exactly when no digit follows the optional sign
      once the leading whitespace is skipped: `abc`, `-x`, `+` and the empty
      text all read as nothing. */
  lemma ParseIntNone(s: string)
    ensures ParseIntPrefix(s).None? <==> !StartsWithNumber(TrimStart(s))
  {
    var u := AfterSign(TrimStart(s));
    assert DigitPrefix(u) == [] <==> !(|u| > 0 && IsDigit(u[0]));
  }

  /** For instance, `abc` reads as no number. */
  lemma ParseIntNoneExample()
    ensures ParseIntPrefix("abc") == None
  {
    var s := "abc";
    assert s[0] == 'a';
    TrimStartNoop(s);
    ParseIntNone(s);
  }

  /** `parseInt` reads back the decimal form of any integer, whatever
      non-digit text follows it. */
  lemma ParseIntDecimal(n: int, rest: string)
    requires rest == [] || !IsDigit(rest[0])
    ensures ParseIntPrefix(IntToDecimal(n) + rest) == Some(n)
  {
    if n < 0 {
      ParseNegativeDecimal(-n, rest);
    } else {
      ParseUnsigned(NatToDecimal(n), rest);
    }
  }

  /** The negative case: `-` followed by the digits of `m` reads as -m. */
  lemma ParseNegativeDecimal(m: nat, rest: string)
    requires m > 0
    requires rest == [] || !IsDigit(rest[0])
    ensures ParseIntPrefix(IntToDecimal(-(m as int)) + rest) == Some(-(m as int))
  {
    var d := NatToDecimal(m);
    assert IntToDecimal(-(m as int)) + rest == "-" + (d + rest);
    ParseDigitsOf(d, rest);
    NegativeSign(d + rest, m);
  }
}

=== FILE: wrappers.dfy ===
/** Optional values and success/failure results, used in place of the
    source's `null` and its returned `Error` objects. */
module Wrappers {

  /** A value that may be absent (the source's `null` / `undefined`). */
  datatype Option<+T> = None | Some(value: T) {

    /** The value, or `default` when absent (the source's `x ?? default`). */
    function GetOr(default: T): T {
      match this
      case Some(v) => v
      case None => default
    }
  }

  /** Either the new value of an operation or the error it returned. */
  datatype Result<+R, +E> = Success(value: R) | Failure(error: E)
}
